=== FILE: README.md ===
# Rainbow emitters: the particle simulation in Dafny

This project models the simulation engine of `js/main.js`. The engine is a population
of *emitters* that drift across a canvas and leave a trail of decaying particles.
When two emitters collide, each turns into an *explosion*: a fixed set of burst
particles that fly apart, slow down and shrink until the explosion's countdown runs
out. Dead emitters and explosions are pruned every frame. One new emitter is spawned
per frame while the population is below its target.

Everything is immutable. Each class of the source is a datatype, each method is a
pure function from the old value to the new one, and the per-frame `draw()` becomes
`Simulation.Tick`, a function from one `World` to the next. Numbers are `real`.
Every random draw of the source becomes a value passed in, together with a predicate
giving the range the source draws it from:

- `ParticleDraw`: direction, speed in [1, 2), lifetime in [20, 35).
- `BurstDraw`: direction, speed in [3, 9), size in [12, 20), shape draw in [1, 3).
- `ExplosionDraw`: count in [60, 90), lifetime in [30, 45).
- `EmitterDraw`: direction, speed in [5, 7), palette index, radius in [10, 25).
- `SpawnDraw`: the integer spawn coordinates.

The modules follow the classes:

| module | models |
|---|---|
| `Geometry` | the p5 vector operations the engine uses, on a `Vec` of two reals |
| `Colors` | the `COLORS` palette |
| `Seqs` | `Array.prototype.filter`, with its exactness and order lemmas |
| `Trail` | class `Particle` (trail particles) and the trail update of an emitter |
| `Bursts` | class `ExplosionParticle` |
| `Explosions` | class `Explosion` |
| `Emitters` | class `Emitter` |
| `Simulation` | the simulation part of `draw()`, lines 262-294 |
| `Scenarios` | worked situations on concrete inputs |

The main loop of `draw()` interleaves two kinds of step. It tests the pairs (i, j)
for j > i, and then emits from, wraps and updates emitter i, before moving on to
emitter i + 1. `Simulation.EmitterLoop` models that interleaving as written.
`Simulation.InterleavedIsPhased` proves it equal to a two-phase reading: first every
collision test, with no emitter moving (`CollisionPass`), then every emitter's motion
(`MotionPass`). The proof works because a pair test only sets `exploded` flags, and
an emitter that has been advanced is never paired again.

Facts about the code that the model keeps as written:

- Lifetimes are drawn from real ranges, so they are reals and in general not whole
  numbers.
- `explode()` is not idempotent: every call pushes a new explosion. Only the guard
  at `js/main.js:267` prevents an emitter from exploding twice.
- A trail particle's `update()` adds the acceleration to the velocity before it
  moves, so it moves by the new velocity.
- An explosion builds `ceil(count)` bursts, because the loop runs while the integer
  index is below the real `count`. That gives between 60 and 90 bursts inclusive.
- An explosion stores its count, not its position.
- The burst shape is `Math.round` of a draw in [1, 3), so it is not uniform.
  `Bursts.ShapeOf` states the exact intervals: square on [1, 1.5), circle on
  [1.5, 2.5) and streak on [2.5, 3). Under a uniform draw those are weights of
  1/4, 1/2 and 1/4. `Bursts.NewBurst` gives every burst the shape `ShapeOf` picks.
- The replenishment test compares the population *before* pruning. Emitters that die
  in a frame still count toward the target in that frame.

## Model

| member | source | states |
|---|---|---|
| `Seqs.Filter` | js/main.js:293-294 | the result is no longer than the input and every kept element satisfies the predicate |
| `Seqs.FilterExact` | js/main.js:293-294 | filtering drops exactly the rejected values: each value keeps its multiplicity if kept and has none otherwise |
| `Seqs.FilterMembers` | js/main.js:202 | a value is in the filtered sequence iff it is in the input and satisfies the predicate |
| `Seqs.FilterKeepsOrder` | js/main.js:293-294 | the filtered sequence is a subsequence of the input, so the survivors keep their order |
| `Trail.NewParticle` | js/main.js:87-97 | a new trail particle starts at (x, y) with zero acceleration, its mass and colour, the drawn lifetime, and the drawn direction times the drawn speed as velocity, so its speed is in [1, 2); it is not dead |
| `Trail.ParticleDead` | js/main.js:114-116 | a trail particle is dead once its lifetime is at most 0; `ParticleDiesOnSchedule` gives the update at which that happens |
| `Trail.UpdateParticle` | js/main.js:99-106 | velocity gains the acceleration, position gains the new velocity, acceleration is cleared, lifetime drops by exactly one, mass and colour unchanged |
| `Trail.AgeTrail` | js/main.js:198-200 | every trail particle is updated exactly once, in place; none is added or removed |
| `Trail.ApplyForceToParticle` | js/main.js:108-112 | the acceleration changes by force / mass (mass times the change equals the force) and nothing else changes |
| `Trail.ParticleSize` | js/main.js:118-120 | the drawing size maps lifetime 0 to 1 and lifetime 35 to 30, staying within [1, 30] for lifetimes in [0, 35] |
| `Trail.ParticleSizeMonotone` | js/main.js:118-120 | a particle with more lifetime left is drawn strictly larger |
| `Trail.ParticleSizeShrinksPerUpdate` | js/main.js:99-120 | each update shrinks the dot by exactly 29/35 |
| `Trail.ParticleSizeAfter` | js/main.js:99-120 | after n updates the dot has shrunk by exactly n * 29/35 |
| `Trail.UpdateTrail` | js/main.js:198-202 | after the trail update no dead particle remains and the trail does not grow |
| `Trail.UpdateTrailExact` | js/main.js:198-202 | the trail update drops exactly the particles that are dead after aging |
| `Trail.UpdateTrailKeepsOrder` | js/main.js:202 | the surviving trail particles keep their relative order |
| `Trail.UpdateTrailLowersBound` | js/main.js:198-202 | if every particle has at most `bound` lifetime, every survivor has at most `bound - 1`, and with `bound <= 1` the trail empties |
| `Trail.ParticleDiesOnSchedule` | js/main.js:99-116 | after n updates the lifetime has dropped by exactly n, and the particle is dead iff n has reached its starting lifetime, never earlier |
| `Bursts.ShapeOf` | js/main.js:21 | rounding a draw in [1, 3) gives square on [1, 1.5), circle on [1.5, 2.5) and streak on [2.5, 3), each as an iff |
| `Bursts.NewBurst` | js/main.js:13-22 | a new burst starts at (x, y) in the explosion's colour, with the drawn direction times the drawn speed as velocity (speed in [3, 9)), the drawn size in [12, 20), and the shape `ShapeOf` gives for the drawn shape value |
| `Bursts.UpdateBurst` | js/main.js:24-29 | a burst moves by its old velocity, then its velocity is damped by 0.99 and its size drops by 0.5; colour and shape are unchanged |
| `Bursts.BurstClosedForm` | js/main.js:24-29 | after n updates the velocity is the initial one times 0.99^n, the size has dropped by n/2, and the position has advanced by the initial velocity times 1 + 0.99 + ... + 0.99^(n-1) |
| `Bursts.BurstSpeedDecays` | js/main.js:19-27 | the squared speed after n updates is (0.99^n)^2 times the initial squared speed: geometric decay |
| `Explosions.BurstLoop` | js/main.js:57-59 | the loop `for (i = 0; i < count; i++)` builds bursts until the first integer index not below the real count, each from its own draw at (x, y) |
| `Explosions.NewExplosion` | js/main.js:50-60 | an explosion holds ceil(count) bursts, between 60 and 90, burst k being `NewBurst` at (x, y) in its colour from the k-th burst draw; it stores the drawn count and lifetime and is not dead |
| `Explosions.UpdateExplosion` | js/main.js:66-72 | the lifetime drops by exactly one and every burst is updated once; no burst is added or removed |
| `Explosions.ExplosionDead` | js/main.js:62-64 | an explosion is dead once its lifetime is at most 0, whatever its bursts look like; `ExplosionDiesOnSchedule` gives the update at which that happens |
| `Explosions.ExplosionDiesOnSchedule` | js/main.js:62-72 | after n updates the explosion has lost n of its lifetime and keeps all its bursts, each aged n times; it is dead iff n reaches its starting lifetime, whatever the bursts look like |
| `Emitters.NewEmitter` | js/main.js:128-139 | a new emitter is active at (x, y), with no acceleration, an empty trail, the drawn direction times the drawn speed as velocity (speed in [5, 7)), the palette colour at the drawn index and the drawn radius in [10, 25); it is not dead |
| `Emitters.DeadIffExplodedAndDrained` | js/main.js:187-189 | an active emitter is never dead; an exploded one is dead iff its trail is empty |
| `Emitters.EmitterDead` | js/main.js:187-189 | an emitter is dead when its trail is empty and it has exploded; `DeadIffExplodedAndDrained` states both sides |
| `Emitters.Emit` | js/main.js:141-146 | emitting appends one particle per draw after the unchanged old trail; the k-th new one is `NewParticle` from the k-th draw, at the emitter's position, in its colour, with mass 1, so it moves with the drawn direction and speed; nothing else changes |
| `Emitters.ApplyForce` | js/main.js:148-157 | an exploded emitter is unchanged; an active one adds the force to its acceleration, and each trail particle's acceleration changes by the opposite force over its mass |
| `Emitters.ApplyForceCancels` | js/main.js:148-157 | applying a force and then its opposite restores the emitter and its whole trail |
| `Emitters.WrapAxis` | js/main.js:159-172 | a coordinate inside [0, max] is kept, one beyond max goes to 0, one below 0 goes to max; the result is always in [0, max] |
| `Emitters.WrapEdges` | js/main.js:159-172 | the wrapped position is always on the canvas, an on-canvas emitter is unchanged, and only the position changes |
| `Emitters.WrapEdgesIdempotent` | js/main.js:159-172 | wrapping twice gives the same emitter as wrapping once |
| `Emitters.CollidesIffWithinRadius` | js/main.js:174-180 | `a` collides with `b` iff the Euclidean distance between them is at most `a`'s radius |
| `Emitters.Collides` | js/main.js:174-180 | `a.collides(b)` compares squared distance with `a`'s squared radius; `CollidesIffWithinRadius` states that this is the source's square-root test |
| `Emitters.CollidesSymmetricForEqualRadii` | js/main.js:174-180 | with equal radii the collision test gives the same answer both ways |
| `Emitters.CollidesIsAsymmetric` | js/main.js:174-180 | there are emitters `a` and `b` where `a` collides with `b` but `b` does not collide with `a`: only the caller's radius counts |
| `Emitters.CollidesAtSamePoint` | js/main.js:174-180 | an emitter collides with any emitter at its own position |
| `Emitters.CollisionBoundaryReached` | js/main.js:174-180 | with radius 10 a point at distance exactly 10 collides: the boundary is inclusive |
| `Emitters.CollisionBoundaryExceeded` | js/main.js:174-180 | with radius 10 a point at distance 10.0001 does not collide |
| `Emitters.Explode` | js/main.js:182-185 | exploding sets the flag and changes nothing else; the new explosion has the emitter's colour, the drawn lifetime and ceil(count) bursts at the emitter's position; it is `NewExplosion` at the emitter's position, with no guard |
| `Emitters.UpdateEmitter` | js/main.js:191-203 | an active emitter integrates its motion and an exploded one keeps position, velocity and acceleration; in both states the flag, colour and radius are kept and the trail is aged and pruned |
| `Emitters.ExplodedEmitterAges` | js/main.js:191-203 | an exploded emitter stays exploded and in place through n updates, and the lifetime bound of its trail drops by n |
| `Emitters.ExplodedEmitterDrains` | js/main.js:187-203 | an exploded emitter whose trail particles all have at most n lifetime stays exploded and in place, and is dead after n updates |
| `Simulation.PairStep` | js/main.js:265-272 | a pair with an exploded emitter, or where `i` does not reach `j`, is left alone; otherwise both flags are set, `i` first, and the two explosions `Explode` makes at each emitter's position, from `blasts[i]` and `blasts[j]`, are appended in that order |
| `Simulation.PairStepGrows` | js/main.js:265-272 | a pair step changes exploded flags only, resets none, keeps the old explosions in front and adds exactly one explosion per newly exploded emitter |
| `Simulation.CollideRow` | js/main.js:264-273 | the inner loop keeps the number of emitters and never removes an explosion; which emitters it explodes is stated by `RowLeavesNoActivePartner` and `RowExplosionsHavePartners` |
| `Simulation.CollideRowGrows` | js/main.js:264-273 | the inner loop changes flags only, leaves emitters before `i` alone and adds one explosion per newly exploded emitter, each with a lifetime in [30, 45) |
| `Simulation.RowLeavesNoActivePartner` | js/main.js:264-272 | if emitter `i` is still active after its row, no emitter after it that is still active collides with it: a colliding active pair is never skipped |
| `Simulation.RowExplosionsHavePartners` | js/main.js:264-272 | an emitter that was active before the row and is exploded after it has an active partner it collides with, the lower index being the caller |
| `Simulation.Advance` | js/main.js:275-280 | an active emitter gets one new trail particle at its pre-wrap position, then wraps, then takes velocity + acceleration as velocity, moves by it from the wrapped position and clears its acceleration; an exploded one keeps position and velocity and only ages its trail; flag, colour and radius are kept |
| `Simulation.EmitterLoop` | js/main.js:262-282 | the outer loop keeps the number of emitters and never removes an explosion; which emitters end exploded is stated by `CollisionOutcome` |
| `Simulation.EmitterLoopGrows` | js/main.js:262-282 | over the whole loop no flag is reset, the old explosions stay in front, and the number of new explosions equals the number of newly exploded emitters and is even; each new one has a lifetime in [30, 45) |
| `Simulation.CollisionPass` | js/main.js:262-273 | every collision row, with no emitter moving in between, keeps the number of emitters and never removes an explosion; its outcome is stated by `PassLeavesNoActivePair` and `PassExplosionsHavePartners` |
| `Simulation.CollisionPassFlagsOnly` | js/main.js:262-273 | the collision rows change exploded flags only |
| `Simulation.PassLeavesNoActivePair` | js/main.js:262-273 | after the collision rows, no two emitters that are both still active collide |
| `Simulation.PassExplosionsHavePartners` | js/main.js:262-273 | every emitter the collision rows explode had an active partner it collides with |
| `Simulation.MotionPass` | js/main.js:275-280 | the motion steps keep the number of emitters and leave the explosions untouched |
| `Simulation.MotionPassAdvancesEach` | js/main.js:275-280 | each emitter from `i` on is advanced exactly once, on its own, and earlier ones are untouched |
| `Simulation.AdvanceCommutesWithLaterRows` | js/main.js:262-282 | advancing emitter i and then running the collision rows after i gives the same world as the other order |
| `Simulation.InterleavedIsPhased` | js/main.js:262-282 | the interleaved loop equals all collision tests first, then all motion steps |
| `Simulation.ExplodedEmittersStayPut` | js/main.js:262-282 | an emitter that is exploded after the loop has not moved during the frame, keeps its velocity and did not emit: its trail was only aged and pruned once |
| `Simulation.ActiveEmittersAdvance` | js/main.js:262-282 | an emitter still active after the loop equals its starting state advanced once: it emitted, wrapped and moved exactly once |
| `Simulation.CollisionOutcome` | js/main.js:262-282 | which emitters the loop explodes, both ways: no two emitters still active after the loop collide, and every emitter that exploded in this frame had an active partner it collides with, tested in the loop's order |
| `Simulation.Replenish` | js/main.js:289-291 | below the target exactly one emitter is appended, `NewEmitter` at the spawn draw's coordinates with its velocity, colour and radius, so it is active, has an empty trail and lies inside the canvas; at or above the target nothing changes |
| `Simulation.Prune` | js/main.js:293-294 | no dead emitter or dead explosion survives pruning, and neither collection grows |
| `Simulation.AgeExplosions` | js/main.js:284-287 | every explosion, new ones of this frame included, is updated exactly once, in place |
| `Simulation.Settle` | js/main.js:262-291 | before pruning, the population has grown by the one spawn exactly when it was below the target; the frame's starting explosions come first, each updated once, and every later one is an explosion this frame's loop created, in order, updated once, with lifetime in [29, 44) |
| `Simulation.PruneExact` | js/main.js:293-294 | pruning removes exactly the dead emitters and explosions, and the survivors keep their order |
| `Simulation.Tick` | js/main.js:262-294 | after a frame nothing dead remains, and the number of emitters has grown by at most one |
| `Simulation.TickSpawnsAtMostOne` | js/main.js:289-291 | before pruning, a frame adds exactly one emitter when the starting population is below the target and none otherwise, after the emitters as the loop left them |
| `Simulation.TickKeepsFreshExplosions` | js/main.js:284-294 | after a frame the explosions are the old ones, aged and pruned, followed by every explosion created in that frame, aged once and all still alive |
| `Simulation.ActiveEmittersSurvive` | js/main.js:293-294 | an emitter still active after the loop is never pruned |
| `Simulation.QuietRowChangesNothing` | js/main.js:264-273 | with all emitters active and no colliding pair, the inner loop changes nothing |
| `Simulation.QuietPassChangesNothing` | js/main.js:262-273 | with all emitters active and no colliding pair, the collision tests change nothing |
| `Simulation.QuietLoop` | js/main.js:262-282 | with all emitters active and no colliding pair, the loop creates no explosion and every emitter stays active |
| `Simulation.QuietTick` | js/main.js:262-294 | a frame without collisions creates no explosion and loses no emitter; it gains exactly one emitter when below the target |
| `Scenarios.SharedPointExplodesBoth` | js/main.js:262-294 | two active emitters at one point both explode in the first frame, leaving exactly two explosions in their colours, and both explosions survive the frame |
| `Scenarios.CollidingPair` | js/main.js:265-272 | the pair test on two colliding active emitters sets both flags and creates two explosions in their colours |
| `Scenarios.PairCollisionPass` | js/main.js:262-273 | with two emitters the collision tests are the single pair test |
| `Scenarios.QuietThreeOfFiveGainsOne` | js/main.js:289-291 | with a target of five and three quiet emitters, a frame ends with four emitters, not five |
| `Scenarios.DefaultFirstFrame` | js/main.js:262-294 | with the 600 by 600 canvas and target of ten, the first frame of an empty world spawns one emitter and makes no explosion |
| `Scenarios.ThirtyFiveFrameParticle` | js/main.js:99-116 | a trail particle with lifetime 35 is alive after 34 updates and dead after 35 |

## Left out

- Drawing: every `display()` method, `clear`, `background`, `blendMode`, the shadow
  settings and the colour strings. They produce pixels, not state.
- `setup()`, the frame rate, GIF recording and the still-image branch of `draw()`.
  These are host and driver concerns. The initial population is any `World`.
- The `mouse` vector built in `draw()`. It is never used.
- `Emitter.applyForce` is modelled, but `draw()` never calls it.
- `Particle.checkEdges`: `edgeCheck` is never set, so the call at line 102 never
  runs.
- `Emitter.force`, `Emitter.emitted` and `Particle.radius`. They are written but
  never read.
- Floating point: numbers are exact reals. There is no rounding in the vector
  operations or in the 0.99 damping.
- `Emitters.CollidesIffWithinRadius`: `Collides` compares the squared distance with
  the squared radius instead of calling `Math.sqrt`. The lemma relates the two for
  any non-negative distance whose square is the squared distance; floating-point
  rounding of the square root is not modelled.
- `Math.random`, `p5.Vector.random2D` and `random(COLORS)` become the draw values
  described above. Their ranges are preconditions and their distributions are not
  modelled. Each frame supplies one explosion draw and one trail draw per emitter:
  an emitter explodes at most once and emits at most once per frame.
- p5's `map` is used only in the unclamped linear form that `getSize` needs.

=== FILE: bursts.dfy ===
/** Burst particles: the pieces an explosion throws out (class `ExplosionParticle`
    in js/main.js). No force acts on them; their velocity is damped and their
    size shrinks every tick. */
module Bursts {
  import opened Geometry
  import opened Colors

  /** The three drawing variants, codes 1, 2 and 3 of `particleType`. */
  datatype Shape = Square | Circle | Streak

  datatype Burst = Burst(position: Vec, velocity: Vec, color: Color, size: real, shape: Shape)

  /** Velocity factor per tick (`dampening`). */
  const Dampening: real := 0.99

  /** Size lost per tick. */
  const Shrink: real := 0.5

  /** The random values one burst particle consumes: a direction, a speed from
      getRandomRange(3, 9), a size from getRandomRange(12, 20) and the draw
      getRandomRange(1, 3) that is rounded to the shape code. */
  datatype BurstDraw = BurstDraw(heading: Vec, speed: real, size: real, shapeDraw: real)

  predicate ValidBurstDraw(d: BurstDraw) {
    IsUnit(d.heading) && 3.0 <= d.speed < 9.0 && 12.0 <= d.size < 20.0 && 1.0 <= d.shapeDraw < 3.0
  }

  /** `Math.round` of a draw in [1, 3), halves rounding up. */
  function ShapeOf(u: real): (s: Shape)
    requires 1.0 <= u < 3.0
    ensures s == Square <==> u < 1.5
    ensures s == Circle <==> 1.5 <= u < 2.5
    ensures s == Streak <==> 2.5 <= u
  {
    var code := (u + 0.5).Floor;
    if code == 1 then Square else if code == 2 then Circle else Streak
  }

  /** `new ExplosionParticle(x, y, color)`. */
  function NewBurst(x: real, y: real, color: Color, d: BurstDraw): (b: Burst)
    requires ValidBurstDraw(d)
    ensures b.position == Vec(x, y) && b.color == color
    ensures b.velocity == Scale(d.heading, d.speed)
    ensures SqNorm(b.velocity) == d.speed * d.speed
    ensures 9.0 <= SqNorm(b.velocity) < 81.0
    ensures b.size == d.size && 12.0 <= b.size < 20.0
    ensures b.shape == ShapeOf(d.shapeDraw)
  {
    SqNormScale(d.heading, d.speed);
    assert d.speed * d.speed < 9.0 * d.speed;
    assert d.speed * d.speed >= 3.0 * d.speed;
    Burst(Vec(x, y), Scale(d.heading, d.speed), color, d.size, ShapeOf(d.shapeDraw))
  }

  /** One tick: move by the current velocity, then damp the velocity, then shrink. */
  function UpdateBurst(b: Burst): (r: Burst)
    ensures r.position == Add(b.position, b.velocity)
    ensures r.velocity == Scale(b.velocity, Dampening)
    ensures r.size == b.size - Shrink
    ensures r.color == b.color && r.shape == b.shape
  {
    b.(position := Add(b.position, b.velocity), velocity := Scale(b.velocity, Dampening), size := b.size - Shrink)
  }

  /** `n` consecutive updates. */
  function AgeBurst(b: Burst, n: nat): Burst
  {
    if n == 0 then b else UpdateBurst(AgeBurst(b, n - 1))
  }

  function Pow(base: real, n: nat): real
  {
    if n == 0 then 1.0 else base * Pow(base, n - 1)
  }

  /** Sum of Dampening^k for k < n: how many initial velocities a burst has travelled after n ticks. */
  function Travel(n: nat): real
  {
    if n == 0 then 0.0 else Travel(n - 1) + Pow(Dampening, n - 1)
  }

  /** Closed form of a burst after `n` ticks: the velocity is the initial one scaled
      by 0.99^n, the size has lost n/2, the position has advanced by the initial
      velocity times 1 + 0.99 + ... + 0.99^(n-1); colour and shape never change. */
  lemma {:induction false} BurstClosedForm(b: Burst, n: nat)
    ensures AgeBurst(b, n).velocity == Scale(b.velocity, Pow(Dampening, n))
    ensures AgeBurst(b, n).size == b.size - Shrink * n as real
    ensures AgeBurst(b, n).position == Add(b.position, Scale(b.velocity, Travel(n)))
    ensures AgeBurst(b, n).color == b.color && AgeBurst(b, n).shape == b.shape
  {
    if n == 0 {
      assert Scale(b.velocity, 1.0) == b.velocity;
      assert Add(b.position, Scale(b.velocity, 0.0)) == b.position;
    } else {
      BurstClosedForm(b, n - 1);
      var prev := AgeBurst(b, n - 1);
      ScaleScale(b.velocity, Pow(Dampening, n - 1), Dampening);
      assert Pow(Dampening, n - 1) * Dampening == Pow(Dampening, n);
      var v := b.velocity;
      var t := Travel(n - 1);
      var q := Pow(Dampening, n - 1);
      assert v.x * t + v.x * q == v.x * (t + q);
      assert v.y * t + v.y * q == v.y * (t + q);
    }
  }

  /** The speed decays geometrically: |v_n|^2 = (0.99^n)^2 |v_0|^2. */
  lemma BurstSpeedDecays(b: Burst, n: nat)
    ensures SqNorm(AgeBurst(b, n).velocity) == Pow(Dampening, n) * Pow(Dampening, n) * SqNorm(b.velocity)
  {
    BurstClosedForm(b, n);
    SqNormScale(b.velocity, Pow(Dampening, n));
  }
}

=== FILE: colors.dfy ===
/** Colours of emitters and the particles they hand their colour to. */
module Colors {

  datatype Color = Rgb(r: int, g: int, b: int)

  /** The four colours an emitter may be given at creation (js/main.js, COLORS). */
  const Palette: seq<Color> := [
    Rgb(57, 212, 203),
    Rgb(57, 135, 203),
    Rgb(57, 212, 121),
    Rgb(178, 117, 203)
  ]
}

=== FILE: emitters.dfy ===
/** Emitters: the moving bodies that leave a trail, collide and explode
    (class `Emitter` in js/main.js). */
module Emitters {
  import opened Geometry
  import opened Colors
  import opened Seqs
  import opened Trail
  import opened Explosions

  /** `exploded` is the two-state lifecycle flag: false while active, true once the
      emitter has collided. Nothing ever sets it back to false. */
  datatype Emitter = Emitter(
    position: Vec,
    velocity: Vec,
    acceleration: Vec,
    trail: seq<Particle>,
    color: Color,
    exploded: bool,
    radius: PosReal)

  /** The random values one emitter construction consumes: a direction, a speed from
      getRandomRange(5, 7), an index into the palette for `random(COLORS)` and a
      radius from getRandomRange(10, 25). */
  datatype EmitterDraw = EmitterDraw(heading: Vec, speed: real, colorIndex: nat, radius: real)

  predicate ValidEmitterDraw(d: EmitterDraw) {
    IsUnit(d.heading) && 5.0 <= d.speed < 7.0 && d.colorIndex < |Palette| && 10.0 <= d.radius < 25.0
  }

  /** `new Emitter(x, y)`: active, with an empty trail and no acceleration. */
  function NewEmitter(x: real, y: real, d: EmitterDraw): (e: Emitter)
    requires ValidEmitterDraw(d)
    ensures e.position == Vec(x, y) && e.acceleration == Zero
    ensures e.velocity == Scale(d.heading, d.speed) && 25.0 <= SqNorm(e.velocity) < 49.0
    ensures e.color == Palette[d.colorIndex] && e.color in Palette
    ensures e.radius == d.radius && 10.0 <= e.radius < 25.0
    ensures !e.exploded && e.trail == [] && !EmitterDead(e)
  {
    SqNormScale(d.heading, d.speed);
    assert d.speed * d.speed < 7.0 * d.speed;
    assert d.speed * d.speed >= 5.0 * d.speed;
    Emitter(Vec(x, y), Scale(d.heading, d.speed), Zero, [], Palette[d.colorIndex], false, d.radius)
  }

  /** Removable from the world: exploded and with nothing left of its trail. */
  predicate EmitterDead(e: Emitter) {
    |e.trail| <= 0 && e.exploded
  }

  /** An active emitter is never dead, however short its trail; an exploded one is
      dead exactly when its trail is empty. */
  lemma DeadIffExplodedAndDrained(e: Emitter)
    ensures !e.exploded ==> !EmitterDead(e)
    ensures e.exploded ==> (EmitterDead(e) <==> e.trail == [])
  {
  }

  /** `emit(count)` with count = |draws|: appends one trail particle per draw, each at
      the emitter's current position, in its colour, with mass 1, moving with that
      draw's direction and speed. The state flag and the motion are untouched. */
  function Emit(e: Emitter, draws: seq<ParticleDraw>): (r: Emitter)
    requires forall k :: 0 <= k < |draws| ==> ValidParticleDraw(draws[k])
    ensures |r.trail| == |e.trail| + |draws|
    ensures r.trail[..|e.trail|] == e.trail
    ensures forall k :: |e.trail| <= k < |r.trail| ==>
              && r.trail[k].position == e.position
              && r.trail[k].color == e.color
              && r.trail[k].mass == 1.0
              && r.trail[k].acceleration == Zero
              && r.trail[k].lifeTime == draws[k - |e.trail|].lifeTime
              && !ParticleDead(r.trail[k])
    ensures forall k :: |e.trail| <= k < |r.trail| ==>
              r.trail[k] == NewParticle(e.position.x, e.position.y, 1.0, e.color, draws[k - |e.trail|])
    ensures r == e.(trail := r.trail)
  {
    var born := seq(|draws|, k requires 0 <= k < |draws| =>
                       NewParticle(e.position.x, e.position.y, 1.0, e.color, draws[k]));
    e.(trail := e.trail + born)
  }

  /** `applyForce(force)`: nothing happens once exploded. While active, the emitter's
      acceleration takes the force and every trail particle takes the opposite force
      (divided by its mass); nothing else changes. */
  function ApplyForce(e: Emitter, force: Vec): (r: Emitter)
    ensures e.exploded ==> r == e
    ensures !e.exploded ==> r.acceleration == Add(e.acceleration, force)
    ensures |r.trail| == |e.trail|
    ensures !e.exploded ==> forall k :: 0 <= k < |e.trail| ==>
              && Scale(Sub(r.trail[k].acceleration, e.trail[k].acceleration), e.trail[k].mass) == Neg(force)
              && r.trail[k] == e.trail[k].(acceleration := r.trail[k].acceleration)
    ensures r == e.(acceleration := r.acceleration, trail := r.trail)
  {
    if e.exploded then e
    else
      e.(acceleration := Add(e.acceleration, force),
         trail := seq(|e.trail|, k requires 0 <= k < |e.trail| => ApplyForceToParticle(e.trail[k], Neg(force))))
  }

  /** Applying a force and then its opposite leaves an emitter and its whole trail as
      they were; on an exploded emitter both are no-ops. */
  lemma ApplyForceCancels(e: Emitter, force: Vec)
    ensures ApplyForce(ApplyForce(e, force), Neg(force)) == e
  {
    if !e.exploded {
      var r := ApplyForce(ApplyForce(e, force), Neg(force));
      forall k | 0 <= k < |e.trail|
        ensures r.trail[k] == e.trail[k]
      {
        var p := e.trail[k];
        var m := p.mass;
        assert (-force.x) / m + (-(-force.x)) / m == 0.0;
        assert (-force.y) / m + (-(-force.y)) / m == 0.0;
      }
      assert r.trail == e.trail;
    }
  }

  /** One axis of `wrapEdges`, in the source's order: first a coordinate beyond the far
      edge goes to 0, then a coordinate below 0 goes to the far edge. */
  function WrapAxis(v: real, max: nat): (r: real)
    ensures 0.0 <= v <= max as real ==> r == v
    ensures v > max as real ==> r == 0.0
    ensures v < 0.0 ==> r == max as real
    ensures 0.0 <= r <= max as real
  {
    var afterFar := if v > max as real then 0.0 else v;
    if afterFar < 0.0 then max as real else afterFar
  }

  predicate InBounds(p: Vec, width: nat, height: nat) {
    0.0 <= p.x <= width as real && 0.0 <= p.y <= height as real
  }

  /** `wrapEdges()`: toroidal wrap of the position, each axis on its own; an
      in-bounds position is left alone and the result is always in bounds. */
  function WrapEdges(e: Emitter, width: nat, height: nat): (r: Emitter)
    ensures InBounds(e.position, width, height) ==> r == e
    ensures InBounds(r.position, width, height)
    ensures r.position == Vec(WrapAxis(e.position.x, width), WrapAxis(e.position.y, height))
    ensures r == e.(position := r.position)
  {
    e.(position := Vec(WrapAxis(e.position.x, width), WrapAxis(e.position.y, height)))
  }

  /** Wrapping twice is wrapping once. */
  lemma WrapEdgesIdempotent(e: Emitter, width: nat, height: nat)
    ensures WrapEdges(WrapEdges(e, width, height), width, height) == WrapEdges(e, width, height)
  {
  }

  /** `a.collides(b)`: the distance from a to b is at most a's own radius. The source
      compares Math.sqrt(dx*dx + dy*dy) with the radius; both sides are non-negative,
      so the squares are compared here instead. */
  predicate Collides(a: Emitter, b: Emitter) {
    SqDist(a.position, b.position) <= a.radius * a.radius
  }

  /** For the Euclidean distance `dist` between the two positions (any non-negative
      number whose square is the squared distance), `Collides(a, b)` holds iff
      dist <= a.radius, the radius of the caller only. */
  lemma CollidesIffWithinRadius(a: Emitter, b: Emitter, dist: real)
    requires dist >= 0.0 && dist * dist == SqDist(a.position, b.position)
    ensures Collides(a, b) <==> dist <= a.radius
  {
    var r: real := a.radius;
    if dist <= r {
      assert dist * dist <= dist * r;
      assert dist * r <= r * r;
      assert SqDist(a.position, b.position) <= a.radius * a.radius;
    } else {
      assert r * r < r * dist < dist * dist;
    }
  }

  /** Only the caller's radius matters: with equal radii the test is symmetric. */
  lemma CollidesSymmetricForEqualRadii(a: Emitter, b: Emitter)
    requires a.radius == b.radius
    ensures Collides(a, b) <==> Collides(b, a)
  {
    var d := Sub(b.position, a.position);
    assert Sub(a.position, b.position) == Neg(d);
    SqNormScale(d, -1.0);
  }

  /** ... and with different radii it is not: a small emitter can fail to reach a big
      one that reaches it. */
  lemma CollidesIsAsymmetric()
    ensures exists a: Emitter, b: Emitter :: Collides(a, b) && !Collides(b, a)
  {
    var a := Emitter(Vec(0.0, 0.0), Zero, Zero, [], Palette[0], false, 20.0);
    var b := Emitter(Vec(15.0, 0.0), Zero, Zero, [], Palette[0], false, 10.0);
    assert Collides(a, b);
    assert !Collides(b, a);
  }

  /** An emitter always collides with one at its own position, whatever the radii. */
  lemma CollidesAtSamePoint(a: Emitter, b: Emitter)
    requires a.position == b.position
    ensures Collides(a, b)
  {
    SqDistSelf(a.position);
    ZeroWithinSquare(SqDist(a.position, b.position), a.radius);
  }

  /** The collision boundary is inclusive: radius 10 reaches a point exactly 10 units
      away ... */
  lemma CollisionBoundaryReached(a: Emitter, b: Emitter)
    requires a.radius == 10.0 && a.position == Vec(0.0, 0.0) && b.position == Vec(10.0, 0.0)
    ensures Collides(a, b)
  {
    SqDistOnAxis(a.position, b.position);
  }

  /** ... and nothing beyond. */
  lemma CollisionBoundaryExceeded(a: Emitter, c: Emitter)
    requires a.radius == 10.0 && a.position == Vec(0.0, 0.0) && c.position == Vec(10.0001, 0.0)
    ensures !Collides(a, c)
  {
    SqDistOnAxis(a.position, c.position);
  }

  /** `explode()`: the emitter is marked exploded and an explosion is made at its
      position in its colour. This happens whatever the current state: a second call
      yields a second explosion; only the caller's guard prevents that. */
  function Explode(e: Emitter, d: ExplosionDraw): (r: (Emitter, Explosion))
    requires ValidExplosionDraw(d)
    ensures r.0.exploded && r.0 == e.(exploded := true)
    ensures r.1.color == e.color && r.1.lifeTime == d.lifeTime && !ExplosionDead(r.1)
    ensures |r.1.particles| == Ceil(d.count)
    ensures forall k :: 0 <= k < |r.1.particles| ==> r.1.particles[k].position == e.position
    ensures r.1 == NewExplosion(e.position.x, e.position.y, e.color, d)
  {
    (e.(exploded := true), NewExplosion(e.position.x, e.position.y, e.color, d))
  }

  /** `update()`: an active emitter integrates its motion (velocity takes the
      acceleration, position takes the velocity, acceleration is cleared); an
      exploded one stays where it is. In both states every trail particle ages
      once and the dead ones are dropped, the survivors keeping their order. */
  function UpdateEmitter(e: Emitter): (r: Emitter)
    ensures e.exploded ==> r.position == e.position && r.velocity == e.velocity && r.acceleration == e.acceleration
    ensures !e.exploded ==> && r.velocity == Add(e.velocity, e.acceleration)
                            && r.position == Add(e.position, r.velocity)
                            && r.acceleration == Zero
    ensures r.exploded == e.exploded && r.color == e.color && r.radius == e.radius
    ensures r.trail == UpdateTrail(e.trail)
  {
    var moved :=
      if e.exploded then e
      else
        var v := Add(e.velocity, e.acceleration);
        e.(velocity := v, position := Add(e.position, v), acceleration := Zero);
    moved.(trail := UpdateTrail(e.trail))
  }

  /** `n` consecutive updates. */
  function AgeEmitter(e: Emitter, n: nat): Emitter
  {
    if n == 0 then e else UpdateEmitter(AgeEmitter(e, n - 1))
  }

  /** While exploded, an emitter stays exploded and in place, and the lifetime bound
      of its trail drops by one per update. */
  lemma {:induction false} ExplodedEmitterAges(e: Emitter, n: nat, bound: real)
    requires e.exploded
    requires forall k :: 0 <= k < |e.trail| ==> e.trail[k].lifeTime <= bound
    ensures AgeEmitter(e, n).exploded && AgeEmitter(e, n).position == e.position
    ensures forall k :: 0 <= k < |AgeEmitter(e, n).trail| ==> AgeEmitter(e, n).trail[k].lifeTime <= bound - n as real
  {
    if n > 0 {
      var prev := AgeEmitter(e, n - 1);
      ExplodedEmitterAges(e, n - 1, bound);
      UpdateTrailLowersBound(prev.trail, bound - (n - 1) as real);
    }
  }

  /** An exploded emitter whose trail particles all hold at most `n` of lifetime is
      dead after `n` updates, without having moved: the lifecycle Exploded -> Removed
      always completes. */
  lemma {:induction false} ExplodedEmitterDrains(e: Emitter, n: nat)
    requires e.exploded && n >= 1
    requires forall k :: 0 <= k < |e.trail| ==> e.trail[k].lifeTime <= n as real
    ensures AgeEmitter(e, n).exploded
    ensures AgeEmitter(e, n).position == e.position
    ensures EmitterDead(AgeEmitter(e, n))
  {
    var prev := AgeEmitter(e, n - 1);
    ExplodedEmitterAges(e, n - 1, n as real);
    UpdateTrailLowersBound(prev.trail, 1.0);
  }
}

=== FILE: explosions.dfy ===
/** Explosions: a fixed set of burst particles plus a lifetime countdown
    (class `Explosion` in js/main.js). The explosion dies as a whole. */
module Explosions {
  import opened Geometry
  import opened Colors
  import opened Bursts

  /** `count` is the drawn particle count as stored by the source (a real), and
      `particles` the bursts created from it; no position is kept. */
  datatype Explosion = Explosion(count: real, lifeTime: real, color: Color, particles: seq<Burst>)

  /** The random values one explosion consumes: a count from getRandomRange(60, 90),
      a lifetime from getRandomRange(30, 45), and a supply of per-burst draws, of
      which the construction loop uses one per iteration. */
  datatype ExplosionDraw = ExplosionDraw(count: real, lifeTime: real, bursts: seq<BurstDraw>)

  predicate ValidExplosionDraw(d: ExplosionDraw) {
    && 60.0 <= d.count < 90.0
    && 30.0 <= d.lifeTime < 45.0
    && d.count <= |d.bursts| as real
    && forall k :: 0 <= k < |d.bursts| ==> ValidBurstDraw(d.bursts[k])
  }

  /** The least integer not below `c`. */
  function Ceil(c: real): (n: int)
    ensures c <= n as real < c + 1.0
  {
    if c.Floor as real == c then c.Floor else c.Floor + 1
  }

  /** An integer `n` with n - 1 < c <= n is the ceiling of `c`. */
  lemma CeilUnique(c: real, n: int)
    requires c <= n as real && (n - 1) as real < c
    ensures n == Ceil(c)
  {
  }

  /** The constructor's loop `for (i = 0; i < count; i++)` from iteration `i` on:
      it keeps going while the integer `i` is below the real `count`, so it stops
      at the first `i` with i >= count. */
  function BurstLoop(x: real, y: real, color: Color, d: ExplosionDraw, i: nat): (ps: seq<Burst>)
    requires ValidExplosionDraw(d) && i <= |d.bursts|
    ensures d.count <= (i + |ps|) as real
    ensures i as real < d.count ==> ((i + |ps|) - 1) as real < d.count
    ensures i as real >= d.count ==> |ps| == 0
    ensures forall k :: 0 <= k < |ps| ==> ps[k] == NewBurst(x, y, color, d.bursts[i + k])
    decreases |d.bursts| - i
  {
    if i as real < d.count then
      [NewBurst(x, y, color, d.bursts[i])] + BurstLoop(x, y, color, d, i + 1)
    else
      []
  }

  /** `new Explosion(x, y, color)`: ceil(count) bursts, so between 60 and 90 of them,
      burst k built from the k-th burst draw at (x, y) in the explosion's colour. The
      drawn count itself is stored, not rounded. */
  function NewExplosion(x: real, y: real, color: Color, d: ExplosionDraw): (e: Explosion)
    requires ValidExplosionDraw(d)
    ensures |e.particles| == Ceil(d.count)
    ensures 60 <= |e.particles| <= 90
    ensures forall k :: 0 <= k < |e.particles| ==>
              e.particles[k].position == Vec(x, y) && e.particles[k].color == color
    ensures forall k :: 0 <= k < |e.particles| ==> e.particles[k] == NewBurst(x, y, color, d.bursts[k])
    ensures e.count == d.count
    ensures e.color == color && e.lifeTime == d.lifeTime && !ExplosionDead(e)
  {
    var ps := BurstLoop(x, y, color, d, 0);
    CeilUnique(d.count, |ps|);
    Explosion(d.count, d.lifeTime, color, ps)
  }

  /** Dead once the lifetime has run out, whatever the sizes of its bursts. */
  predicate ExplosionDead(e: Explosion) {
    e.lifeTime <= 0.0
  }

  /** One tick: the lifetime drops by exactly one and every burst is updated once;
      no burst is added or removed. */
  function UpdateExplosion(e: Explosion): (r: Explosion)
    ensures r.lifeTime == e.lifeTime - 1.0
    ensures |r.particles| == |e.particles|
    ensures forall k :: 0 <= k < |e.particles| ==> r.particles[k] == UpdateBurst(e.particles[k])
    ensures r.count == e.count && r.color == e.color
  {
    e.(lifeTime := e.lifeTime - 1.0,
       particles := seq(|e.particles|, k requires 0 <= k < |e.particles| => UpdateBurst(e.particles[k])))
  }

  /** `n` consecutive updates. */
  function AgeExplosion(e: Explosion, n: nat): Explosion
  {
    if n == 0 then e else UpdateExplosion(AgeExplosion(e, n - 1))
  }

  /** After `n` updates the explosion has lost exactly `n` of its lifetime and still
      holds as many bursts, each aged `n` times; it is dead iff `n` has reached its
      starting lifetime, whatever the bursts look like. */
  lemma {:induction false} ExplosionDiesOnSchedule(e: Explosion, n: nat)
    ensures AgeExplosion(e, n).lifeTime == e.lifeTime - n as real
    ensures |AgeExplosion(e, n).particles| == |e.particles|
    ensures forall k :: 0 <= k < |e.particles| ==> AgeExplosion(e, n).particles[k] == AgeBurst(e.particles[k], n)
    ensures ExplosionDead(AgeExplosion(e, n)) <==> n as real >= e.lifeTime
  {
    if n > 0 {
      ExplosionDiesOnSchedule(e, n - 1);
    }
  }
}

=== FILE: geometry.dfy ===
/** Plane vectors over the reals: the part of p5.Vector the simulation relies on.
    Vectors are immutable values, so copying a force before negating it (as the
    source does with `force.copy()`) needs no counterpart here. */
module Geometry {

  /** Strictly positive reals, for masses and radii. */
  type PosReal = r: real | r > 0.0 witness 1.0

  datatype Vec = Vec(x: real, y: real)

  const Zero: Vec := Vec(0.0, 0.0)

  function Add(a: Vec, b: Vec): Vec {
    Vec(a.x + b.x, a.y + b.y)
  }

  function Sub(a: Vec, b: Vec): Vec {
    Vec(a.x - b.x, a.y - b.y)
  }

  function Scale(v: Vec, k: real): Vec {
    Vec(v.x * k, v.y * k)
  }

  function Neg(v: Vec): Vec {
    Scale(v, -1.0)
  }

  function Div(v: Vec, k: PosReal): Vec {
    Vec(v.x / k, v.y / k)
  }

  /** Squared Euclidean length. */
  function SqNorm(v: Vec): real {
    v.x * v.x + v.y * v.y
  }

  /** Squared distance from `a` to `b`, i.e. dx*dx + dy*dy with dx = b.x - a.x. */
  function SqDist(a: Vec, b: Vec): real {
    SqNorm(Sub(b, a))
  }

  /** A direction as returned by p5.Vector.random2D: a vector of length one. */
  predicate IsUnit(v: Vec) {
    SqNorm(v) == 1.0
  }

  lemma SqNormScale(v: Vec, k: real)
    ensures SqNorm(Scale(v, k)) == k * k * SqNorm(v)
  {
    calc {
      SqNorm(Scale(v, k));
      (v.x * k) * (v.x * k) + (v.y * k) * (v.y * k);
      k * k * (v.x * v.x) + k * k * (v.y * v.y);
    }
  }

  lemma ScaleScale(v: Vec, a: real, b: real)
    ensures Scale(Scale(v, a), b) == Scale(v, a * b)
  {
    assert (v.x * a) * b == v.x * (a * b);
    assert (v.y * a) * b == v.y * (a * b);
  }

  lemma SqDistSelf(p: Vec)
    ensures SqDist(p, p) == 0.0
  {
    assert Sub(p, p) == Zero;
  }

  /** Zero is within any positive radius, in squared form. Stated apart from its
      uses so that the solver meets the product `r * r` without other context. */
  lemma ZeroWithinSquare(d: real, r: PosReal)
    requires d == 0.0
    ensures d <= r * r
  {
  }

  /** The squared distance from the origin to a point on the x axis. */
  lemma SqDistOnAxis(p: Vec, q: Vec)
    requires p == Zero && q.y == 0.0
    ensures SqDist(p, q) == q.x * q.x
  {
    assert Sub(q, p) == Vec(q.x, 0.0);
  }
}

=== FILE: scenarios.dfy ===
/** Small worked situations that pin the model down on concrete inputs. */
module Scenarios {
  import opened Geometry
  import opened Trail
  import opened Explosions
  import opened Emitters
  import opened Simulation

  /** Two active emitters sharing a point collide in the first frame: both are flagged
      and exactly two explosions appear, one per emitter, in their colours. */
  lemma SharedPointExplodesBoth(cfg: Config, a: Emitter, b: Emitter, d: TickDraws)
    requires !a.exploded && !b.exploded && a.position == b.position
    requires ValidTickDraws(cfg, 2, d)
    ensures var moved := EmitterLoop(cfg, World([a, b], []), 0, d.blasts, d.sparks);
      && moved.emitters[0].exploded && moved.emitters[1].exploded
      && |moved.explosions| == 2
      && moved.explosions[0].color == a.color && moved.explosions[1].color == b.color
    ensures |Tick(cfg, World([a, b], []), d).explosions| == 2
  {
    var w := World([a, b], []);
    var p := PairStep(w, 0, 1, d.blasts);
    CollidesAtSamePoint(a, b);
    CollidingPair(w, d.blasts);
    PairCollisionPass(w, d.blasts);
    InterleavedIsPhased(cfg, w, 0, d.blasts, d.sparks);
    var moved := EmitterLoop(cfg, w, 0, d.blasts, d.sparks);
    assert moved == MotionPass(cfg, p, 0, d.sparks);
    MotionPassAdvancesEach(cfg, p, 0, d.sparks);
    assert moved.emitters[0] == Advance(cfg, p.emitters[0], d.sparks[0]);
    assert moved.emitters[1] == Advance(cfg, p.emitters[1], d.sparks[1]);
    TickKeepsFreshExplosions(cfg, w, d);
  }

  /** The single pair test on two colliding active emitters fires. */
  lemma CollidingPair(w: World, blasts: seq<ExplosionDraw>)
    requires |w.emitters| == 2 && ValidBlasts(2, blasts) && w.explosions == []
    requires !w.emitters[0].exploded && !w.emitters[1].exploded
    requires Collides(w.emitters[0], w.emitters[1])
    ensures var p := PairStep(w, 0, 1, blasts);
      && p.emitters[0].exploded && p.emitters[1].exploded && |p.explosions| == 2
      && p.explosions[0].color == w.emitters[0].color && p.explosions[1].color == w.emitters[1].color
  {
    var p := PairStep(w, 0, 1, blasts);
    assert p.emitters == w.emitters[0 := w.emitters[0].(exploded := true)][1 := w.emitters[1].(exploded := true)];
    assert p.emitters[0] == w.emitters[0].(exploded := true);
  }

  /** With two emitters, the collision pass is the single test of the pair. */
  lemma PairCollisionPass(w: World, blasts: seq<ExplosionDraw>)
    requires |w.emitters| == 2 && ValidBlasts(2, blasts)
    ensures CollisionPass(w, 0, blasts) == PairStep(w, 0, 1, blasts)
  {
    var p := PairStep(w, 0, 1, blasts);
    calc {
      CollisionPass(w, 0, blasts);
      CollisionPass(CollideRow(w, 0, 1, blasts), 1, blasts);
      CollisionPass(CollideRow(p, 0, 2, blasts), 1, blasts);
      CollisionPass(p, 1, blasts);
      CollisionPass(CollideRow(p, 1, 2, blasts), 2, blasts);
      CollisionPass(p, 2, blasts);
      p;
    }
  }

  /** Three quiet emitters under a target of five: one is spawned, none is lost. */
  lemma QuietThreeOfFiveGainsOne(w: World, d: TickDraws)
    requires |w.emitters| == 3 && Quiet(w.emitters)
    requires ValidTickDraws(Config(600, 600, 5), 3, d)
    ensures |Tick(Config(600, 600, 5), w, d).emitters| == 4
  {
    QuietTick(Config(600, 600, 5), w, d);
  }

  /** With the settings js/main.js runs with, the first frame of an empty world spawns
      one emitter and makes no explosion. */
  lemma DefaultFirstFrame(d: TickDraws)
    requires ValidTickDraws(Default, 0, d)
    ensures |Tick(Default, World([], []), d).emitters| == 1
    ensures Tick(Default, World([], []), d).explosions == []
  {
    QuietTick(Default, World([], []), d);
    QuietLoop(Default, World([], []), d.blasts, d.sparks);
  }

  /** A particle born with 35 frames to live is still drawn after 34 updates and pruned after 35. */
  lemma ThirtyFiveFrameParticle(p: Particle)
    requires p.lifeTime == 35.0
    ensures !ParticleDead(AgeParticle(p, 34)) && ParticleDead(AgeParticle(p, 35))
  {
    ParticleDiesOnSchedule(p, 34);
    ParticleDiesOnSchedule(p, 35);
  }
}

=== FILE: seqs.dfy ===
/** Order-preserving selection over sequences, the model of JavaScript's
    `Array.prototype.filter` as the simulation uses it for pruning. */
module Seqs {

  /** `r` is obtained from `s` by deleting some elements, keeping the order of the rest. */
  predicate IsSubseq<T(==)>(r: seq<T>, s: seq<T>)
    decreases |s|
  {
    |r| == 0 ||
    (|s| > 0 &&
     ((r[0] == s[0] && IsSubseq(r[1..], s[1..])) || IsSubseq(r, s[1..])))
  }

  /** The elements of `s` for which `keep` holds, in their original order. */
  function Filter<T>(keep: T -> bool, s: seq<T>): (r: seq<T>)
    ensures |r| <= |s|
    ensures forall k :: 0 <= k < |r| ==> keep(r[k])
  {
    if |s| == 0 then []
    else
      var rest := Filter(keep, s[1..]);
      if keep(s[0]) then [s[0]] + rest else rest
  }

  /** Exactly the rejected elements disappear: every value keeps its multiplicity
      if kept and vanishes otherwise. */
  lemma {:induction false} FilterExact<T(!new)>(keep: T -> bool, s: seq<T>)
    ensures forall x :: multiset(Filter(keep, s))[x] == if keep(x) then multiset(s)[x] else 0
    decreases |s|
  {
    if |s| > 0 {
      FilterExact(keep, s[1..]);
      assert s == [s[0]] + s[1..];
    }
  }

  /** Filtering keeps exactly the kept members. */
  lemma FilterMembers<T(!new)>(keep: T -> bool, s: seq<T>)
    ensures forall x :: x in Filter(keep, s) <==> x in s && keep(x)
  {
    FilterExact(keep, s);
    forall x
      ensures x in Filter(keep, s) <==> x in s && keep(x)
    {
      assert x in Filter(keep, s) <==> multiset(Filter(keep, s))[x] > 0;
      assert x in s <==> multiset(s)[x] > 0;
    }
  }

  /** Filtering keeps the survivors in their original relative order. */
  lemma {:induction false} FilterKeepsOrder<T>(keep: T -> bool, s: seq<T>)
    ensures IsSubseq(Filter(keep, s), s)
    decreases |s|
  {
    if |s| > 0 {
      FilterKeepsOrder(keep, s[1..]);
      var rest := Filter(keep, s[1..]);
      if keep(s[0]) {
        assert ([s[0]] + rest)[1..] == rest;
      }
    }
  }

  lemma {:induction false} FilterAppend<T(!new)>(keep: T -> bool, s: seq<T>, t: seq<T>)
    ensures Filter(keep, s + t) == Filter(keep, s) + Filter(keep, t)
    decreases |s|
  {
    if |s| == 0 {
      assert s + t == t;
    } else {
      assert (s + t)[1..] == s[1..] + t;
      FilterAppend(keep, s[1..], t);
    }
  }

  /** Filtering a sequence whose elements are all kept returns it unchanged. */
  lemma {:induction false} FilterAllKept<T(!new)>(keep: T -> bool, s: seq<T>)
    requires forall k :: 0 <= k < |s| ==> keep(s[k])
    ensures Filter(keep, s) == s
    decreases |s|
  {
    if |s| > 0 {
      FilterAllKept(keep, s[1..]);
    }
  }

  /** Filtering a sequence none of whose elements is kept gives the empty sequence. */
  lemma {:induction false} FilterNoneKept<T(!new)>(keep: T -> bool, s: seq<T>)
    requires forall k :: 0 <= k < |s| ==> !keep(s[k])
    ensures Filter(keep, s) == []
    decreases |s|
  {
    if |s| > 0 {
      FilterNoneKept(keep, s[1..]);
    }
  }
}

=== FILE: simulation.dfy ===
/** The world and its per-frame tick: the simulation part of `draw()` in js/main.js
    (lines 262-294), with the global `emitters` and `explosions` arrays held in one
    immutable `World` value. */
module Simulation {
  import opened Geometry
  import opened Seqs
  import opened Trail
  import opened Explosions
  import opened Emitters

  datatype World = World(emitters: seq<Emitter>, explosions: seq<Explosion>)

  /** Canvas size and the target population `emitterCount`. */
  datatype Config = Config(width: nat, height: nat, emitterCount: nat)

  /** The values js/main.js runs with: a 600 by 600 canvas and ten emitters. */
  const Default: Config := Config(600, 600, 10)

  /** The random values a replenishing spawn consumes: the two coordinates from
      getRandomNumber(width) and getRandomNumber(height) and the emitter's own draws. */
  datatype SpawnDraw = SpawnDraw(x: int, y: int, emitter: EmitterDraw)

  /** `Math.floor(Math.random() * max)`: an integer in [0, max), or 0 when max is 0. */
  predicate RandomNumberIn(v: int, max: nat) {
    if max == 0 then v == 0 else 0 <= v < max
  }

  predicate ValidSpawnDraw(cfg: Config, d: SpawnDraw) {
    RandomNumberIn(d.x, cfg.width) && RandomNumberIn(d.y, cfg.height) && ValidEmitterDraw(d.emitter)
  }

  /** One explosion draw per emitter slot: an emitter explodes at most once in a tick. */
  predicate ValidBlasts(n: nat, blasts: seq<ExplosionDraw>) {
    |blasts| == n && forall k :: 0 <= k < n ==> ValidExplosionDraw(blasts[k])
  }

  /** One trail-particle draw per emitter slot: an emitter emits at most once in a tick. */
  predicate ValidSparks(n: nat, sparks: seq<ParticleDraw>) {
    |sparks| == n && forall k :: 0 <= k < n ==> ValidParticleDraw(sparks[k])
  }

  /** Number of exploded emitters. */
  function ExplodedCount(es: seq<Emitter>): nat
  {
    if |es| == 0 then 0 else (if es[0].exploded then 1 else 0) + ExplodedCount(es[1..])
  }

  /** Replacing one emitter changes the count by the change of its flag only. */
  lemma {:induction false} ExplodedCountUpdate(es: seq<Emitter>, k: nat, e: Emitter)
    requires k < |es|
    ensures ExplodedCount(es[k := e]) + (if es[k].exploded then 1 else 0)
            == ExplodedCount(es) + (if e.exploded then 1 else 0)
    decreases k
  {
    if k == 0 {
      assert es[k := e][1..] == es[1..];
    } else {
      assert es[k := e][1..] == es[1..][k - 1 := e];
      ExplodedCountUpdate(es[1..], k - 1, e);
    }
  }

  /** The collision-side invariant of a stretch of the tick from `w` to `r`: the same
      emitters, no flag reset, the old explosions kept in front, and exactly one new
      explosion per emitter that turned exploded, which is an even number; every new
      explosion starts with a lifetime in [30, 45). */
  predicate Grows(w: World, r: World) {
    && |r.emitters| == |w.emitters|
    && (forall k :: 0 <= k < |w.emitters| && w.emitters[k].exploded ==> r.emitters[k].exploded)
    && |w.explosions| <= |r.explosions|
    && r.explosions[..|w.explosions|] == w.explosions
    && |r.explosions| - |w.explosions| == ExplodedCount(r.emitters) - ExplodedCount(w.emitters)
    && (|r.explosions| - |w.explosions|) % 2 == 0
    && (forall k :: |w.explosions| <= k < |r.explosions| ==> 30.0 <= r.explosions[k].lifeTime < 45.0)
  }

  lemma GrowsTransitive(a: World, b: World, c: World)
    requires Grows(a, b) && Grows(b, c)
    ensures Grows(a, c)
  {
    assert c.explosions[..|a.explosions|] == c.explosions[..|b.explosions|][..|a.explosions|];
    forall k | |a.explosions| <= k < |c.explosions|
      ensures 30.0 <= c.explosions[k].lifeTime < 45.0
    {
      if k < |b.explosions| {
        assert c.explosions[k] == c.explosions[..|b.explosions|][k];
      }
    }
  }

  /** Only the exploded flags may differ between two emitter sequences. */
  predicate FlagsOnly(es: seq<Emitter>, rs: seq<Emitter>) {
    |rs| == |es| && forall k :: 0 <= k < |es| ==> rs[k] == es[k].(exploded := rs[k].exploded)
  }

  /** The body of the inner loop for one pair i < j: skipped when either emitter has
      already exploded; otherwise, if `emitters[i]` collides with `emitters[j]`, both
      explode, `i` first, and each pushes its own explosion. */
  function PairStep(w: World, i: nat, j: nat, blasts: seq<ExplosionDraw>): (r: World)
    requires i < j < |w.emitters| && ValidBlasts(|w.emitters|, blasts)
    ensures |r.emitters| == |w.emitters| && |w.explosions| <= |r.explosions|
    ensures w.emitters[i].exploded || w.emitters[j].exploded ==> r == w
    ensures !Collides(w.emitters[i], w.emitters[j]) ==> r == w
    ensures !w.emitters[i].exploded && !w.emitters[j].exploded && Collides(w.emitters[i], w.emitters[j]) ==>
              && r.emitters == w.emitters[i := w.emitters[i].(exploded := true)][j := w.emitters[j].(exploded := true)]
              && |r.explosions| == |w.explosions| + 2
              && r.explosions[|w.explosions|].color == w.emitters[i].color
              && r.explosions[|w.explosions| + 1].color == w.emitters[j].color
              && r.explosions == w.explosions + [Explode(w.emitters[i], blasts[i]).1, Explode(w.emitters[j], blasts[j]).1]
  {
    var a := w.emitters[i];
    var b := w.emitters[j];
    if a.exploded || b.exploded then w
    else if Collides(a, b) then
      var (a', xa) := Explode(a, blasts[i]);
      var (b', xb) := Explode(b, blasts[j]);
      World(w.emitters[i := a'][j := b'], w.explosions + [xa, xb])
    else w
  }

  /** Setting two active flags and pushing two fresh explosions keeps the
      collision-side invariant. */
  lemma TwoExplodedGrow(w: World, r: World, i: nat, j: nat, xa: Explosion, xb: Explosion)
    requires i < j < |w.emitters| && !w.emitters[i].exploded && !w.emitters[j].exploded
    requires r.emitters == w.emitters[i := w.emitters[i].(exploded := true)][j := w.emitters[j].(exploded := true)]
    requires r.explosions == w.explosions + [xa, xb]
    requires 30.0 <= xa.lifeTime < 45.0 && 30.0 <= xb.lifeTime < 45.0
    ensures Grows(w, r) && FlagsOnly(w.emitters, r.emitters)
  {
    ExplodedCountUpdate(w.emitters, i, w.emitters[i].(exploded := true));
    ExplodedCountUpdate(w.emitters[i := w.emitters[i].(exploded := true)], j, w.emitters[j].(exploded := true));
    assert r.explosions[..|w.explosions|] == w.explosions;
  }

  /** A pair step keeps the collision-side invariant and changes flags only. */
  lemma PairStepGrows(w: World, i: nat, j: nat, blasts: seq<ExplosionDraw>)
    requires i < j < |w.emitters| && ValidBlasts(|w.emitters|, blasts)
    ensures Grows(w, PairStep(w, i, j, blasts)) && FlagsOnly(w.emitters, PairStep(w, i, j, blasts).emitters)
  {
    var a := w.emitters[i];
    var b := w.emitters[j];
    if !a.exploded && !b.exploded && Collides(a, b) {
      TwoExplodedGrow(w, PairStep(w, i, j, blasts), i, j, Explode(a, blasts[i]).1, Explode(b, blasts[j]).1);
    }
  }

  /** The inner loop `for (j = i + 1; j < emitters.length; j++)` from `j` on. It
      touches no emitter before `i`. */
  function CollideRow(w: World, i: nat, j: nat, blasts: seq<ExplosionDraw>): (r: World)
    requires i < j <= |w.emitters| && ValidBlasts(|w.emitters|, blasts)
    ensures |r.emitters| == |w.emitters| && |w.explosions| <= |r.explosions|
    decreases |w.emitters| - j
  {
    if j == |w.emitters| then w
    else CollideRow(PairStep(w, i, j, blasts), i, j + 1, blasts)
  }

  /** A row keeps the collision-side invariant, changes flags only, and leaves every
      emitter before `i` alone. */
  lemma {:induction false} CollideRowGrows(w: World, i: nat, j: nat, blasts: seq<ExplosionDraw>)
    requires i < j <= |w.emitters| && ValidBlasts(|w.emitters|, blasts)
    ensures Grows(w, CollideRow(w, i, j, blasts)) && FlagsOnly(w.emitters, CollideRow(w, i, j, blasts).emitters)
    ensures forall k :: 0 <= k < i ==> CollideRow(w, i, j, blasts).emitters[k] == w.emitters[k]
    decreases |w.emitters| - j
  {
    if j < |w.emitters| {
      var s := PairStep(w, i, j, blasts);
      PairStepGrows(w, i, j, blasts);
      CollideRowGrows(s, i, j + 1, blasts);
      GrowsTransitive(w, s, CollideRow(s, i, j + 1, blasts));
    }
  }

  /** What the outer loop does to emitter i after its row: an active emitter emits one
      trail particle and wraps at the edges; then, in either state, it is updated. */
  function Advance(cfg: Config, e: Emitter, spark: ParticleDraw): (r: Emitter)
    requires ValidParticleDraw(spark)
    ensures r.exploded == e.exploded && r.color == e.color && r.radius == e.radius
    ensures e.exploded ==> r.position == e.position && r.velocity == e.velocity
    ensures e.exploded ==> r.trail == UpdateTrail(e.trail)
    ensures !e.exploded ==> r.trail == UpdateTrail(e.trail + [NewParticle(e.position.x, e.position.y, 1.0, e.color, spark)])
    ensures !e.exploded ==> && r.velocity == Add(e.velocity, e.acceleration)
                            && r.position == Add(WrapEdges(e, cfg.width, cfg.height).position, r.velocity)
                            && r.acceleration == Zero
  {
    var e1 := if e.exploded then e else WrapEdges(Emit(e, [spark]), cfg.width, cfg.height);
    assert !e.exploded ==> e1.trail == e.trail + [NewParticle(e.position.x, e.position.y, 1.0, e.color, spark)] by {
      if !e.exploded {
        var emitted := Emit(e, [spark]);
        assert emitted.trail[..|e.trail|] == e.trail;
        assert emitted.trail == emitted.trail[..|e.trail|] + [emitted.trail[|e.trail|]];
      }
    }
    UpdateEmitter(e1)
  }

  function AdvanceAt(cfg: Config, w: World, i: nat, sparks: seq<ParticleDraw>): (r: World)
    requires i < |w.emitters| && ValidSparks(|w.emitters|, sparks)
    ensures r.explosions == w.explosions
    ensures r.emitters == w.emitters[i := Advance(cfg, w.emitters[i], sparks[i])]
  {
    World(w.emitters[i := Advance(cfg, w.emitters[i], sparks[i])], w.explosions)
  }

  lemma AdvanceAtGrows(cfg: Config, w: World, i: nat, sparks: seq<ParticleDraw>)
    requires i < |w.emitters| && ValidSparks(|w.emitters|, sparks)
    ensures Grows(w, AdvanceAt(cfg, w, i, sparks))
  {
    ExplodedCountUpdate(w.emitters, i, Advance(cfg, w.emitters[i], sparks[i]));
  }

  /** The outer loop `for (i = 0; i < emitters.length; i++)` from `i` on, interleaved
      as in the source: the row of pairs (i, j) for j > i, then emitter i's emission,
      wrap and update, and only then emitter i + 1. Emitters before `i` are untouched. */
  function EmitterLoop(cfg: Config, w: World, i: nat, blasts: seq<ExplosionDraw>, sparks: seq<ParticleDraw>): (r: World)
    requires i <= |w.emitters| && ValidBlasts(|w.emitters|, blasts) && ValidSparks(|w.emitters|, sparks)
    ensures |r.emitters| == |w.emitters| && |w.explosions| <= |r.explosions|
    decreases |w.emitters| - i
  {
    if i == |w.emitters| then w
    else EmitterLoop(cfg, AdvanceAt(cfg, CollideRow(w, i, i + 1, blasts), i, sparks), i + 1, blasts, sparks)
  }

  /** Over the whole loop: the same emitters, no exploded flag reset, the old
      explosions kept in front, and exactly one new explosion per emitter that
      exploded in this tick (an even number, two per colliding pair), each starting
      with a lifetime in [30, 45). */
  lemma {:induction false} EmitterLoopGrows(cfg: Config, w: World, i: nat, blasts: seq<ExplosionDraw>, sparks: seq<ParticleDraw>)
    requires i <= |w.emitters| && ValidBlasts(|w.emitters|, blasts) && ValidSparks(|w.emitters|, sparks)
    ensures Grows(w, EmitterLoop(cfg, w, i, blasts, sparks))
    decreases |w.emitters| - i
  {
    if i < |w.emitters| {
      var row := CollideRow(w, i, i + 1, blasts);
      var adv := AdvanceAt(cfg, row, i, sparks);
      CollideRowGrows(w, i, i + 1, blasts);
      AdvanceAtGrows(cfg, row, i, sparks);
      GrowsTransitive(w, row, adv);
      EmitterLoopGrows(cfg, adv, i + 1, blasts, sparks);
      GrowsTransitive(w, adv, EmitterLoop(cfg, adv, i + 1, blasts, sparks));
    }
  }

  /** The phased reading of the same loop, first half: every pair row from `i` on,
      with no emitter moving in between. */
  function CollisionPass(w: World, i: nat, blasts: seq<ExplosionDraw>): (r: World)
    requires i <= |w.emitters| && ValidBlasts(|w.emitters|, blasts)
    ensures |r.emitters| == |w.emitters| && |w.explosions| <= |r.explosions|
    decreases |w.emitters| - i
  {
    if i == |w.emitters| then w
    else CollisionPass(CollideRow(w, i, i + 1, blasts), i + 1, blasts)
  }

  /** The collision rows change exploded flags only and leave the emitters before
      `i` alone. */
  lemma {:induction false} CollisionPassFlagsOnly(w: World, i: nat, blasts: seq<ExplosionDraw>)
    requires i <= |w.emitters| && ValidBlasts(|w.emitters|, blasts)
    ensures FlagsOnly(w.emitters, CollisionPass(w, i, blasts).emitters)
    ensures forall k :: 0 <= k < i ==> CollisionPass(w, i, blasts).emitters[k] == w.emitters[k]
    decreases |w.emitters| - i
  {
    if i < |w.emitters| {
      var row := CollideRow(w, i, i + 1, blasts);
      CollideRowGrows(w, i, i + 1, blasts);
      CollisionPassFlagsOnly(row, i + 1, blasts);
    }
  }

  /** The collision rows never reset a flag and keep the old explosions in front. */
  lemma {:induction false} CollisionPassGrows(w: World, i: nat, blasts: seq<ExplosionDraw>)
    requires i <= |w.emitters| && ValidBlasts(|w.emitters|, blasts)
    ensures Grows(w, CollisionPass(w, i, blasts))
    decreases |w.emitters| - i
  {
    if i < |w.emitters| {
      var row := CollideRow(w, i, i + 1, blasts);
      CollideRowGrows(w, i, i + 1, blasts);
      CollisionPassGrows(row, i + 1, blasts);
      GrowsTransitive(w, row, CollisionPass(row, i + 1, blasts));
    }
  }

  /** No exploded flag is reset from `es` to `rs`. */
  predicate KeepsFlags(es: seq<Emitter>, rs: seq<Emitter>) {
    |rs| == |es| && forall k :: 0 <= k < |es| && es[k].exploded ==> rs[k].exploded
  }

  /** The two emitters stand at the same place with the same radius. */
  predicate SamePlace(e: Emitter, r: Emitter) {
    r.position == e.position && r.radius == e.radius
  }

  /** Every emitter keeps its position and radius from `es` to `rs`. */
  predicate SamePlaces(es: seq<Emitter>, rs: seq<Emitter>) {
    |rs| == |es| && forall k :: 0 <= k < |es| ==> SamePlace(es[k], rs[k])
  }

  lemma FlagsOnlySamePlaces(es: seq<Emitter>, rs: seq<Emitter>)
    requires FlagsOnly(es, rs)
    ensures SamePlaces(es, rs)
  {
    forall k | 0 <= k < |es|
      ensures SamePlace(es[k], rs[k])
    {
      assert rs[k] == es[k].(exploded := rs[k].exploded);
    }
  }

  /** The collision test reads positions and radii only. */
  lemma CollidesIgnoresFlags(es: seq<Emitter>, rs: seq<Emitter>, a: nat, b: nat)
    requires SamePlaces(es, rs) && a < |es| && b < |es|
    ensures Collides(rs[a], rs[b]) <==> Collides(es[a], es[b])
  {
  }

  lemma PairSetsFlags(w: World, i: nat, j: nat, blasts: seq<ExplosionDraw>)
    requires i < j < |w.emitters| && ValidBlasts(|w.emitters|, blasts)
    ensures SamePlaces(w.emitters, PairStep(w, i, j, blasts).emitters)
    ensures KeepsFlags(w.emitters, PairStep(w, i, j, blasts).emitters)
  {
    PairStepGrows(w, i, j, blasts);
    FlagsOnlySamePlaces(w.emitters, PairStep(w, i, j, blasts).emitters);
  }

  lemma RowSetsFlags(w: World, i: nat, j: nat, blasts: seq<ExplosionDraw>)
    requires i < j <= |w.emitters| && ValidBlasts(|w.emitters|, blasts)
    ensures SamePlaces(w.emitters, CollideRow(w, i, j, blasts).emitters)
    ensures KeepsFlags(w.emitters, CollideRow(w, i, j, blasts).emitters)
  {
    CollideRowGrows(w, i, j, blasts);
    FlagsOnlySamePlaces(w.emitters, CollideRow(w, i, j, blasts).emitters);
  }

  lemma PassKeepsFlags(w: World, i: nat, blasts: seq<ExplosionDraw>)
    requires i <= |w.emitters| && ValidBlasts(|w.emitters|, blasts)
    ensures KeepsFlags(w.emitters, CollisionPass(w, i, blasts).emitters)
  {
    CollisionPassGrows(w, i, blasts);
  }

  /** If emitter `i` is still active in `rs`, no emitter from `lo` on that is still
      active in `rs` collides with it in `es`. */
  predicate RowSettled(es: seq<Emitter>, rs: seq<Emitter>, i: nat, lo: nat)
    requires |rs| == |es| && i < |es|
  {
    forall b :: lo <= b < |es| ==> (!rs[i].exploded && !rs[b].exploded ==> !Collides(es[i], es[b]))
  }

  /** After the row of `i` from `j` on, if `i` is still active, no still-active `b`
      from `j` on collides with it: a colliding active pair is never skipped. */
  lemma {:induction false} RowLeavesNoActivePartner(w: World, i: nat, j: nat, blasts: seq<ExplosionDraw>)
    requires i < j <= |w.emitters| && ValidBlasts(|w.emitters|, blasts)
    ensures RowSettled(w.emitters, CollideRow(w, i, j, blasts).emitters, i, j)
    decreases |w.emitters| - j
  {
    if j < |w.emitters| {
      RowLeavesNoActivePartner(PairStep(w, i, j, blasts), i, j + 1, blasts);
      RowStepSettled(w, i, j, blasts);
    }
  }

  /** One pair of the row induction: the pair (i, j) itself is settled by its step. */
  lemma RowStepSettled(w: World, i: nat, j: nat, blasts: seq<ExplosionDraw>)
    requires i < j < |w.emitters| && ValidBlasts(|w.emitters|, blasts)
    requires RowSettled(PairStep(w, i, j, blasts).emitters,
                        CollideRow(PairStep(w, i, j, blasts), i, j + 1, blasts).emitters, i, j + 1)
    ensures RowSettled(w.emitters, CollideRow(w, i, j, blasts).emitters, i, j)
  {
    var s := PairStep(w, i, j, blasts);
    var r := CollideRow(s, i, j + 1, blasts);
    PairSetsFlags(w, i, j, blasts);
    RowSetsFlags(s, i, j + 1, blasts);
    forall b | j <= b < |w.emitters| && !r.emitters[i].exploded && !r.emitters[b].exploded
      ensures !Collides(w.emitters[i], w.emitters[b])
    {
      assert !s.emitters[i].exploded && !s.emitters[b].exploded;
      if b > j {
        CollidesIgnoresFlags(w.emitters, s.emitters, i, b);
      }
    }
  }

  /** No two emitters from `lo` on that are active in `rs` collide in `es`. */
  predicate NoActivePairCollides(es: seq<Emitter>, rs: seq<Emitter>, lo: nat)
    requires |rs| == |es|
  {
    forall a, b :: lo <= a < b < |es| && !rs[a].exploded && !rs[b].exploded ==> !Collides(es[a], es[b])
  }

  /** After the collision rows from `i` on, no two emitters from `i` on that are both
      still active collide. */
  lemma {:induction false} PassLeavesNoActivePair(w: World, i: nat, blasts: seq<ExplosionDraw>)
    requires i <= |w.emitters| && ValidBlasts(|w.emitters|, blasts)
    ensures NoActivePairCollides(w.emitters, CollisionPass(w, i, blasts).emitters, i)
    decreases |w.emitters| - i
  {
    if i < |w.emitters| {
      PassLeavesNoActivePair(CollideRow(w, i, i + 1, blasts), i + 1, blasts);
      PassStepNoActivePair(w, i, blasts);
    }
  }

  /** One row of the pass induction: the row of `i` settles every pair (i, b), and
      the later rows the pairs after `i`. */
  lemma PassStepNoActivePair(w: World, i: nat, blasts: seq<ExplosionDraw>)
    requires i < |w.emitters| && ValidBlasts(|w.emitters|, blasts)
    requires NoActivePairCollides(CollideRow(w, i, i + 1, blasts).emitters,
                                  CollisionPass(CollideRow(w, i, i + 1, blasts), i + 1, blasts).emitters, i + 1)
    ensures NoActivePairCollides(w.emitters, CollisionPass(w, i, blasts).emitters, i)
  {
    var row := CollideRow(w, i, i + 1, blasts);
    RowOfPass(w, i, blasts);
    PassKeepsFlags(row, i + 1, blasts);
    RowThenRestSettled(w.emitters, row.emitters, CollisionPass(row, i + 1, blasts).emitters, i);
    CollisionPassUnfold(w, i, blasts);
  }

  /** The row of `i` moves nothing and settles every pair (i, b). */
  lemma RowOfPass(w: World, i: nat, blasts: seq<ExplosionDraw>)
    requires i < |w.emitters| && ValidBlasts(|w.emitters|, blasts)
    ensures SamePlaces(w.emitters, CollideRow(w, i, i + 1, blasts).emitters)
    ensures RowSettled(w.emitters, CollideRow(w, i, i + 1, blasts).emitters, i, i + 1)
  {
    RowSetsFlags(w, i, i + 1, blasts);
    RowLeavesNoActivePartner(w, i, i + 1, blasts);
  }

  /** One step of the pass: the row of `i`, then the rest. */
  lemma CollisionPassUnfold(w: World, i: nat, blasts: seq<ExplosionDraw>)
    requires i < |w.emitters| && ValidBlasts(|w.emitters|, blasts)
    ensures CollisionPass(w, i, blasts).emitters == CollisionPass(CollideRow(w, i, i + 1, blasts), i + 1, blasts).emitters
  {
  }

  /** The pairs (i, b) are settled by the row of `i`, which moves nothing, and the
      pairs after `i` by the rest of the pass. */
  lemma RowThenRestSettled(es: seq<Emitter>, row: seq<Emitter>, rs: seq<Emitter>, i: nat)
    requires i < |es| && SamePlaces(es, row) && KeepsFlags(row, rs)
    requires RowSettled(es, row, i, i + 1) && NoActivePairCollides(row, rs, i + 1)
    ensures NoActivePairCollides(es, rs, i)
  {
    forall a, b | i <= a < b < |es| && !rs[a].exploded && !rs[b].exploded
      ensures !Collides(es[a], es[b])
    {
      assert !row[a].exploded && !row[b].exploded;
      if a > i {
        CollidesIgnoresFlags(es, row, a, b);
      }
    }
  }

  /** Emitters m and k collide in the order the loop tests them: the lower index is
      the caller. */
  predicate PairCollides(es: seq<Emitter>, m: nat, k: nat)
    requires m < |es| && k < |es|
  {
    if m < k then Collides(es[m], es[k]) else Collides(es[k], es[m])
  }

  /** Emitter k has an active partner it collides with. */
  predicate HasPartner(es: seq<Emitter>, k: nat)
    requires k < |es|
  {
    exists m :: 0 <= m < |es| && m != k && !es[m].exploded && PairCollides(es, m, k)
  }

  /** Every emitter active in `es` and exploded in `rs` has a partner in `es`. */
  predicate ExplodedHavePartners(es: seq<Emitter>, rs: seq<Emitter>)
    requires |rs| == |es|
  {
    forall k :: 0 <= k < |es| && !es[k].exploded && rs[k].exploded ==> HasPartner(es, k)
  }

  /** A partner found after some flags were set was a partner before: positions and
      radii are unchanged and no flag was reset. */
  lemma PartnerBefore(es: seq<Emitter>, rs: seq<Emitter>, k: nat)
    requires SamePlaces(es, rs) && KeepsFlags(es, rs) && k < |es|
    requires HasPartner(rs, k)
    ensures HasPartner(es, k)
  {
    var m :| 0 <= m < |rs| && m != k && !rs[m].exploded && PairCollides(rs, m, k);
    CollidesIgnoresFlags(es, rs, m, k);
    CollidesIgnoresFlags(es, rs, k, m);
    assert PairCollides(es, m, k);
  }

  /** Conversely, an emitter the row from `j` on explodes was active and had an
      active partner it collides with. */
  lemma {:induction false} RowExplosionsHavePartners(w: World, i: nat, j: nat, blasts: seq<ExplosionDraw>)
    requires i < j <= |w.emitters| && ValidBlasts(|w.emitters|, blasts)
    ensures ExplodedHavePartners(w.emitters, CollideRow(w, i, j, blasts).emitters)
    decreases |w.emitters| - j
  {
    if j < |w.emitters| {
      RowExplosionsHavePartners(PairStep(w, i, j, blasts), i, j + 1, blasts);
      RowStepPartners(w, i, j, blasts);
    }
  }

  /** One pair of the row induction: the pair step explodes only a colliding pair. */
  lemma RowStepPartners(w: World, i: nat, j: nat, blasts: seq<ExplosionDraw>)
    requires i < j < |w.emitters| && ValidBlasts(|w.emitters|, blasts)
    requires ExplodedHavePartners(PairStep(w, i, j, blasts).emitters,
                                  CollideRow(PairStep(w, i, j, blasts), i, j + 1, blasts).emitters)
    ensures ExplodedHavePartners(w.emitters, CollideRow(w, i, j, blasts).emitters)
  {
    var s := PairStep(w, i, j, blasts);
    var r := CollideRow(s, i, j + 1, blasts);
    var fired := !w.emitters[i].exploded && !w.emitters[j].exploded && Collides(w.emitters[i], w.emitters[j]);
    PairSetsFlags(w, i, j, blasts);
    forall k | 0 <= k < |w.emitters| && !w.emitters[k].exploded && r.emitters[k].exploded
      ensures HasPartner(w.emitters, k)
    {
      if fired && k == i {
        assert PairCollides(w.emitters, j, i);
      } else if fired && k == j {
        assert PairCollides(w.emitters, i, j);
      } else {
        assert !s.emitters[k].exploded;
        PartnerBefore(w.emitters, s.emitters, k);
      }
    }
  }

  /** ... and so does the whole collision pass from `i` on. */
  lemma {:induction false} PassExplosionsHavePartners(w: World, i: nat, blasts: seq<ExplosionDraw>)
    requires i <= |w.emitters| && ValidBlasts(|w.emitters|, blasts)
    ensures ExplodedHavePartners(w.emitters, CollisionPass(w, i, blasts).emitters)
    decreases |w.emitters| - i
  {
    if i < |w.emitters| {
      PassExplosionsHavePartners(CollideRow(w, i, i + 1, blasts), i + 1, blasts);
      PassStepPartners(w, i, blasts);
    }
  }

  /** One row of the pass induction: an emitter exploded by row `i` has its partner
      there, and one exploded later had it before row `i` too. */
  lemma PassStepPartners(w: World, i: nat, blasts: seq<ExplosionDraw>)
    requires i < |w.emitters| && ValidBlasts(|w.emitters|, blasts)
    requires ExplodedHavePartners(CollideRow(w, i, i + 1, blasts).emitters,
                                  CollisionPass(CollideRow(w, i, i + 1, blasts), i + 1, blasts).emitters)
    ensures ExplodedHavePartners(w.emitters, CollisionPass(w, i, blasts).emitters)
  {
    var row := CollideRow(w, i, i + 1, blasts);
    var p := CollisionPass(row, i + 1, blasts);
    RowSetsFlags(w, i, i + 1, blasts);
    RowExplosionsHavePartners(w, i, i + 1, blasts);
    CollisionPassUnfold(w, i, blasts);
    forall k | 0 <= k < |w.emitters| && !w.emitters[k].exploded && p.emitters[k].exploded
      ensures HasPartner(w.emitters, k)
    {
      if !row.emitters[k].exploded {
        PartnerBefore(w.emitters, row.emitters, k);
      }
    }
  }

  /** The phased reading, second half: every emitter from `i` on is advanced, each on
      its own; explosions are untouched. */
  function MotionPass(cfg: Config, w: World, i: nat, sparks: seq<ParticleDraw>): (r: World)
    requires i <= |w.emitters| && ValidSparks(|w.emitters|, sparks)
    ensures |r.emitters| == |w.emitters| && r.explosions == w.explosions
    decreases |w.emitters| - i
  {
    if i == |w.emitters| then w
    else MotionPass(cfg, AdvanceAt(cfg, w, i, sparks), i + 1, sparks)
  }

  /** The motion half advances each emitter from `i` on by itself and touches
      nothing else. */
  lemma {:induction false} MotionPassAdvancesEach(cfg: Config, w: World, i: nat, sparks: seq<ParticleDraw>)
    requires i <= |w.emitters| && ValidSparks(|w.emitters|, sparks)
    ensures forall k :: 0 <= k < i ==> MotionPass(cfg, w, i, sparks).emitters[k] == w.emitters[k]
    ensures forall k :: i <= k < |w.emitters| ==>
              MotionPass(cfg, w, i, sparks).emitters[k] == Advance(cfg, w.emitters[k], sparks[k])
    decreases |w.emitters| - i
  {
    if i < |w.emitters| {
      MotionPassAdvancesEach(cfg, AdvanceAt(cfg, w, i, sparks), i + 1, sparks);
    }
  }

  function SetEmitter(w: World, i: nat, e: Emitter): World
    requires i < |w.emitters|
  {
    w.(emitters := w.emitters[i := e])
  }

  /** A pair step neither reads nor writes an emitter outside its pair. */
  lemma PairStepFrame(w: World, a: nat, b: nat, i: nat, e: Emitter, blasts: seq<ExplosionDraw>)
    requires a < b < |w.emitters| && i < |w.emitters| && i != a && i != b
    requires ValidBlasts(|w.emitters|, blasts)
    ensures PairStep(SetEmitter(w, i, e), a, b, blasts) == SetEmitter(PairStep(w, a, b, blasts), i, e)
  {
    var ea := w.emitters[a];
    var eb := w.emitters[b];
    if !ea.exploded && !eb.exploded && Collides(ea, eb) {
      var es := w.emitters[a := ea.(exploded := true)][b := eb.(exploded := true)];
      assert w.emitters[i := e][a := ea.(exploded := true)][b := eb.(exploded := true)] == es[i := e];
    }
  }

  /** A row starting after `i` does not involve emitter `i`. */
  lemma {:induction false} CollideRowFrame(w: World, a: nat, j: nat, i: nat, e: Emitter, blasts: seq<ExplosionDraw>)
    requires i < a < j <= |w.emitters| && ValidBlasts(|w.emitters|, blasts)
    ensures CollideRow(SetEmitter(w, i, e), a, j, blasts) == SetEmitter(CollideRow(w, a, j, blasts), i, e)
    decreases |w.emitters| - j
  {
    if j < |w.emitters| {
      var w' := SetEmitter(w, i, e);
      var s := PairStep(w, a, j, blasts);
      PairStepFrame(w, a, j, i, e, blasts);
      assert PairStep(w', a, j, blasts) == SetEmitter(s, i, e);
      CollideRowFrame(s, a, j + 1, i, e, blasts);
      calc {
        CollideRow(w', a, j, blasts);
        CollideRow(PairStep(w', a, j, blasts), a, j + 1, blasts);
        CollideRow(SetEmitter(s, i, e), a, j + 1, blasts);
        SetEmitter(CollideRow(s, a, j + 1, blasts), i, e);
        SetEmitter(CollideRow(w, a, j, blasts), i, e);
      }
    }
  }

  /** The collision rows from `a` on do not involve any emitter before `a`. */
  lemma {:induction false} CollisionPassFrame(w: World, a: nat, i: nat, e: Emitter, blasts: seq<ExplosionDraw>)
    requires i < a <= |w.emitters| && ValidBlasts(|w.emitters|, blasts)
    ensures CollisionPass(SetEmitter(w, i, e), a, blasts) == SetEmitter(CollisionPass(w, a, blasts), i, e)
    decreases |w.emitters| - a
  {
    if a < |w.emitters| {
      var w' := SetEmitter(w, i, e);
      var row := CollideRow(w, a, a + 1, blasts);
      CollideRowFrame(w, a, a + 1, i, e, blasts);
      CollisionPassFrame(row, a + 1, i, e, blasts);
      calc {
        CollisionPass(w', a, blasts);
        CollisionPass(CollideRow(w', a, a + 1, blasts), a + 1, blasts);
        CollisionPass(SetEmitter(row, i, e), a + 1, blasts);
        SetEmitter(CollisionPass(row, a + 1, blasts), i, e);
        SetEmitter(CollisionPass(w, a, blasts), i, e);
      }
    }
  }

  /** Advancing emitter `i` is replacing it by its advanced self. */
  lemma AdvanceAtSets(cfg: Config, w: World, i: nat, sparks: seq<ParticleDraw>)
    requires i < |w.emitters| && ValidSparks(|w.emitters|, sparks)
    ensures AdvanceAt(cfg, w, i, sparks) == SetEmitter(w, i, Advance(cfg, w.emitters[i], sparks[i]))
  {
  }

  /** Advancing emitter `i` commutes with the collision rows after it: they neither
      read nor change emitter `i`. */
  lemma AdvanceCommutesWithLaterRows(cfg: Config, row: World, i: nat, blasts: seq<ExplosionDraw>, sparks: seq<ParticleDraw>)
    requires i < |row.emitters| && ValidBlasts(|row.emitters|, blasts) && ValidSparks(|row.emitters|, sparks)
    ensures CollisionPass(AdvanceAt(cfg, row, i, sparks), i + 1, blasts)
            == AdvanceAt(cfg, CollisionPass(row, i + 1, blasts), i, sparks)
  {
    var moved := Advance(cfg, row.emitters[i], sparks[i]);
    AdvanceAtSets(cfg, row, i, sparks);
    CollisionPassFrame(row, i + 1, i, moved, blasts);
    var rest := CollisionPass(row, i + 1, blasts);
    CollisionPassFlagsOnly(row, i + 1, blasts);
    assert rest.emitters[i] == row.emitters[i];
    AdvanceAtSets(cfg, rest, i, sparks);
  }

  /** The interleaved loop of `draw()` computes the same world as the phased
      description "all collision rows first, then every emitter's emission, wrap and
      update": no row (i', j) with i' > i involves emitter i, so moving emitter i
      before those rows changes nothing. In particular every collision of a tick is
      decided on the positions the emitters had when the tick began. */
  lemma {:induction false} InterleavedIsPhased(cfg: Config, w: World, i: nat, blasts: seq<ExplosionDraw>, sparks: seq<ParticleDraw>)
    requires i <= |w.emitters| && ValidBlasts(|w.emitters|, blasts) && ValidSparks(|w.emitters|, sparks)
    ensures EmitterLoop(cfg, w, i, blasts, sparks) == MotionPass(cfg, CollisionPass(w, i, blasts), i, sparks)
    decreases |w.emitters| - i
  {
    if i < |w.emitters| {
      var row := CollideRow(w, i, i + 1, blasts);
      var adv := AdvanceAt(cfg, row, i, sparks);
      var rest := CollisionPass(row, i + 1, blasts);
      InterleavedIsPhased(cfg, adv, i + 1, blasts, sparks);
      AdvanceCommutesWithLaterRows(cfg, row, i, blasts, sparks);
      calc {
        EmitterLoop(cfg, w, i, blasts, sparks);
        EmitterLoop(cfg, adv, i + 1, blasts, sparks);
        MotionPass(cfg, CollisionPass(adv, i + 1, blasts), i + 1, sparks);
        MotionPass(cfg, AdvanceAt(cfg, rest, i, sparks), i + 1, sparks);
        MotionPass(cfg, rest, i, sparks);
        MotionPass(cfg, CollisionPass(w, i, blasts), i, sparks);
      }
    }
  }

  /** An emitter that is exploded after the loop, whether it exploded in this tick or
      before, has not moved during the tick: a colliding pair never moves after the
      collision is detected. It keeps its velocity and did not emit: its trail was
      only aged and pruned once. */
  lemma ExplodedEmittersStayPut(cfg: Config, w: World, blasts: seq<ExplosionDraw>, sparks: seq<ParticleDraw>)
    requires ValidBlasts(|w.emitters|, blasts) && ValidSparks(|w.emitters|, sparks)
    ensures forall k :: 0 <= k < |w.emitters| && EmitterLoop(cfg, w, 0, blasts, sparks).emitters[k].exploded ==>
              && EmitterLoop(cfg, w, 0, blasts, sparks).emitters[k].position == w.emitters[k].position
              && EmitterLoop(cfg, w, 0, blasts, sparks).emitters[k].velocity == w.emitters[k].velocity
              && EmitterLoop(cfg, w, 0, blasts, sparks).emitters[k].trail == UpdateTrail(w.emitters[k].trail)
  {
    InterleavedIsPhased(cfg, w, 0, blasts, sparks);
    CollisionPassFlagsOnly(w, 0, blasts);
    MotionPassAdvancesEach(cfg, CollisionPass(w, 0, blasts), 0, sparks);
  }

  /** An emitter still active after the loop has been advanced from its starting state
      exactly once: it emitted, wrapped, then moved. */
  lemma ActiveEmittersAdvance(cfg: Config, w: World, blasts: seq<ExplosionDraw>, sparks: seq<ParticleDraw>)
    requires ValidBlasts(|w.emitters|, blasts) && ValidSparks(|w.emitters|, sparks)
    ensures forall k :: 0 <= k < |w.emitters| && !EmitterLoop(cfg, w, 0, blasts, sparks).emitters[k].exploded ==>
              EmitterLoop(cfg, w, 0, blasts, sparks).emitters[k] == Advance(cfg, w.emitters[k], sparks[k])
  {
    var moved := EmitterLoop(cfg, w, 0, blasts, sparks);
    var pass := CollisionPass(w, 0, blasts);
    InterleavedIsPhased(cfg, w, 0, blasts, sparks);
    CollisionPassFlagsOnly(w, 0, blasts);
    MotionPassAdvancesEach(cfg, pass, 0, sparks);
    EmitterLoopGrows(cfg, w, 0, blasts, sparks);
    forall k | 0 <= k < |w.emitters| && !moved.emitters[k].exploded
      ensures moved.emitters[k] == Advance(cfg, w.emitters[k], sparks[k])
    {
      assert moved.emitters[k] == Advance(cfg, pass.emitters[k], sparks[k]);
      assert !pass.emitters[k].exploded;
      assert !w.emitters[k].exploded;
      assert pass.emitters[k] == w.emitters[k].(exploded := pass.emitters[k].exploded);
    }
  }

  /** Which emitters the loop explodes, in both directions: no two emitters still
      active after the loop collide, and every emitter that exploded in this tick had
      an active partner it collides with. */
  lemma CollisionOutcome(cfg: Config, w: World, blasts: seq<ExplosionDraw>, sparks: seq<ParticleDraw>)
    requires ValidBlasts(|w.emitters|, blasts) && ValidSparks(|w.emitters|, sparks)
    ensures NoActivePairCollides(w.emitters, EmitterLoop(cfg, w, 0, blasts, sparks).emitters, 0)
    ensures ExplodedHavePartners(w.emitters, EmitterLoop(cfg, w, 0, blasts, sparks).emitters)
  {
    InterleavedIsPhased(cfg, w, 0, blasts, sparks);
    MotionPassAdvancesEach(cfg, CollisionPass(w, 0, blasts), 0, sparks);
    PassLeavesNoActivePair(w, 0, blasts);
    PassExplosionsHavePartners(w, 0, blasts);
  }

  /** The random values one tick consumes. */
  datatype TickDraws = TickDraws(blasts: seq<ExplosionDraw>, sparks: seq<ParticleDraw>, spawn: SpawnDraw)

  predicate ValidTickDraws(cfg: Config, n: nat, d: TickDraws) {
    ValidBlasts(n, d.blasts) && ValidSparks(n, d.sparks) && ValidSpawnDraw(cfg, d.spawn)
  }

  /** Every explosion is updated once, those created earlier in this tick included. */
  function AgeExplosions(xs: seq<Explosion>): (r: seq<Explosion>)
    ensures |r| == |xs|
    ensures forall k :: 0 <= k < |xs| ==> r[k] == UpdateExplosion(xs[k])
  {
    seq(|xs|, k requires 0 <= k < |xs| => UpdateExplosion(xs[k]))
  }

  /** `if (emitters.length < emitterCount) emitters.push(new Emitter(...))`: at most
      one new emitter, active and inside the canvas, appended at the end. The length
      compared is the one before pruning, so emitters that died in this tick still
      count. */
  function Replenish(cfg: Config, es: seq<Emitter>, spawn: SpawnDraw): (r: seq<Emitter>)
    requires ValidSpawnDraw(cfg, spawn)
    ensures |es| >= cfg.emitterCount ==> r == es
    ensures |es| < cfg.emitterCount ==>
              && |r| == |es| + 1 && r[..|es|] == es
              && !r[|es|].exploded && r[|es|].trail == []
              && InBounds(r[|es|].position, cfg.width, cfg.height)
              && r[|es|] == NewEmitter(spawn.x as real, spawn.y as real, spawn.emitter)
  {
    if |es| < cfg.emitterCount then
      var e := NewEmitter(spawn.x as real, spawn.y as real, spawn.emitter);
      assert (es + [e])[..|es|] == es;
      es + [e]
    else es
  }

  predicate EmitterLive(e: Emitter) {
    !EmitterDead(e)
  }

  predicate ExplosionLive(x: Explosion) {
    !ExplosionDead(x)
  }

  /** The two `filter` calls at the end of `draw()`: nothing dead is left. */
  function Prune(w: World): (r: World)
    ensures |r.emitters| <= |w.emitters| && |r.explosions| <= |w.explosions|
    ensures forall k :: 0 <= k < |r.emitters| ==> !EmitterDead(r.emitters[k])
    ensures forall k :: 0 <= k < |r.explosions| ==> !ExplosionDead(r.explosions[k])
  {
    World(Filter(EmitterLive, w.emitters), Filter(ExplosionLive, w.explosions))
  }

  /** Pruning removes exactly the dead emitters and the dead explosions: every other
      value keeps its multiplicity, and the survivors keep their order. */
  lemma PruneExact(w: World)
    ensures forall e :: multiset(Prune(w).emitters)[e] == if EmitterDead(e) then 0 else multiset(w.emitters)[e]
    ensures forall x :: multiset(Prune(w).explosions)[x] == if ExplosionDead(x) then 0 else multiset(w.explosions)[x]
    ensures IsSubseq(Prune(w).emitters, w.emitters) && IsSubseq(Prune(w).explosions, w.explosions)
  {
    FilterExact(EmitterLive, w.emitters);
    FilterExact(ExplosionLive, w.explosions);
    FilterKeepsOrder(EmitterLive, w.emitters);
    FilterKeepsOrder(ExplosionLive, w.explosions);
  }

  /** Everything one call of `draw()` does to the world before pruning: the emitter
      loop, the update of every explosion, and replenishment. The population grows by
      the one spawn, if any; the explosions the world started with come first, each
      updated once, followed by this tick's new ones, each updated once as well. */
  function Settle(cfg: Config, w: World, d: TickDraws): (r: World)
    requires ValidTickDraws(cfg, |w.emitters|, d)
    ensures |r.emitters| == |w.emitters| + (if |w.emitters| < cfg.emitterCount then 1 else 0)
    ensures |w.explosions| <= |r.explosions|
    ensures forall k :: 0 <= k < |w.explosions| ==> r.explosions[k] == UpdateExplosion(w.explosions[k])
    ensures forall k :: |w.explosions| <= k < |r.explosions| ==> 29.0 <= r.explosions[k].lifeTime < 44.0
    ensures r.explosions[|w.explosions|..] == AgeExplosions(EmitterLoop(cfg, w, 0, d.blasts, d.sparks).explosions[|w.explosions|..])
  {
    var moved := EmitterLoop(cfg, w, 0, d.blasts, d.sparks);
    EmitterLoopGrows(cfg, w, 0, d.blasts, d.sparks);
    assert forall k :: 0 <= k < |w.explosions| ==> moved.explosions[k] == moved.explosions[..|w.explosions|][k];
    World(Replenish(cfg, moved.emitters, d.spawn), AgeExplosions(moved.explosions))
  }

  /** One call of `draw()`, rendering left aside. No dead emitter or explosion
      survives it, and the emitter population grows by at most one. */
  function Tick(cfg: Config, w: World, d: TickDraws): (r: World)
    requires ValidTickDraws(cfg, |w.emitters|, d)
    ensures forall k :: 0 <= k < |r.emitters| ==> !EmitterDead(r.emitters[k])
    ensures forall k :: 0 <= k < |r.explosions| ==> !ExplosionDead(r.explosions[k])
    ensures |r.emitters| <= |w.emitters| + 1
  {
    Prune(Settle(cfg, w, d))
  }

  /** Exactly one emitter is added when, and only when, the emitter count before
      pruning is below the target; that count is the one the tick started with, dead
      emitters of this tick included. */
  lemma TickSpawnsAtMostOne(cfg: Config, w: World, d: TickDraws)
    requires ValidTickDraws(cfg, |w.emitters|, d)
    ensures |Settle(cfg, w, d).emitters| == |w.emitters| + (if |w.emitters| < cfg.emitterCount then 1 else 0)
    ensures Settle(cfg, w, d).emitters[..|w.emitters|] == EmitterLoop(cfg, w, 0, d.blasts, d.sparks).emitters
  {
  }

  /** Aging then pruning `older + made`, where every explosion of `made` has a
      lifetime of 30 or more, keeps all of `made`. */
  lemma AgePruneKeepsMade(older: seq<Explosion>, made: seq<Explosion>)
    requires forall k :: 0 <= k < |made| ==> 30.0 <= made[k].lifeTime
    ensures Filter(ExplosionLive, AgeExplosions(older + made))
            == Filter(ExplosionLive, AgeExplosions(older)) + AgeExplosions(made)
  {
    assert AgeExplosions(older + made) == AgeExplosions(older) + AgeExplosions(made);
    FilterAppend(ExplosionLive, AgeExplosions(older), AgeExplosions(made));
    FilterAllKept(ExplosionLive, AgeExplosions(made));
  }

  /** The explosions after a tick: the old ones, aged once, minus those that died;
      then every explosion created in this tick, aged once and all still alive (their
      lifetime starts at 30 or more). */
  lemma TickKeepsFreshExplosions(cfg: Config, w: World, d: TickDraws)
    requires ValidTickDraws(cfg, |w.emitters|, d)
    ensures var moved := EmitterLoop(cfg, w, 0, d.blasts, d.sparks);
            var made := moved.explosions[|w.explosions|..];
            Tick(cfg, w, d).explosions == Filter(ExplosionLive, AgeExplosions(w.explosions)) + AgeExplosions(made)
  {
    var moved := EmitterLoop(cfg, w, 0, d.blasts, d.sparks);
    LoopAppendsExplosions(cfg, w, d.blasts, d.sparks);
    TickExplosions(cfg, w, d);
    AgePruneKeepsMade(w.explosions, moved.explosions[|w.explosions|..]);
  }

  /** The loop keeps the old explosions in front and appends explosions that all
      start with at least 30 of lifetime. */
  lemma LoopAppendsExplosions(cfg: Config, w: World, blasts: seq<ExplosionDraw>, sparks: seq<ParticleDraw>)
    requires ValidBlasts(|w.emitters|, blasts) && ValidSparks(|w.emitters|, sparks)
    ensures var xs := EmitterLoop(cfg, w, 0, blasts, sparks).explosions;
            && xs == w.explosions + xs[|w.explosions|..]
            && forall k :: 0 <= k < |xs| - |w.explosions| ==> 30.0 <= xs[|w.explosions|..][k].lifeTime
  {
    var xs := EmitterLoop(cfg, w, 0, blasts, sparks).explosions;
    EmitterLoopGrows(cfg, w, 0, blasts, sparks);
    assert xs == xs[..|w.explosions|] + xs[|w.explosions|..];
  }

  /** The explosions after a tick are those the loop left, aged once and pruned. */
  lemma TickExplosions(cfg: Config, w: World, d: TickDraws)
    requires ValidTickDraws(cfg, |w.emitters|, d)
    ensures Tick(cfg, w, d).explosions
            == Filter(ExplosionLive, AgeExplosions(EmitterLoop(cfg, w, 0, d.blasts, d.sparks).explosions))
  {
  }

  /** An emitter that is still active after the loop is never pruned: only exploded
      emitters with an empty trail go. */
  lemma ActiveEmittersSurvive(cfg: Config, w: World, d: TickDraws)
    requires ValidTickDraws(cfg, |w.emitters|, d)
    ensures var moved := EmitterLoop(cfg, w, 0, d.blasts, d.sparks);
            forall k :: 0 <= k < |moved.emitters| && !moved.emitters[k].exploded ==>
              moved.emitters[k] in Tick(cfg, w, d).emitters
  {
    var moved := EmitterLoop(cfg, w, 0, d.blasts, d.sparks);
    var grown := Settle(cfg, w, d).emitters;
    FilterMembers(EmitterLive, grown);
    forall k | 0 <= k < |moved.emitters| && !moved.emitters[k].exploded
      ensures moved.emitters[k] in Tick(cfg, w, d).emitters
    {
      assert grown[k] == moved.emitters[k];
    }
  }

  /** Every emitter is active and no pair i < j collides. */
  predicate Quiet(es: seq<Emitter>) {
    && (forall k :: 0 <= k < |es| ==> !es[k].exploded)
    && (forall i, j :: 0 <= i < j < |es| ==> !Collides(es[i], es[j]))
  }

  lemma {:induction false} QuietRowChangesNothing(w: World, i: nat, j: nat, blasts: seq<ExplosionDraw>)
    requires i < j <= |w.emitters| && ValidBlasts(|w.emitters|, blasts) && Quiet(w.emitters)
    ensures CollideRow(w, i, j, blasts) == w
    decreases |w.emitters| - j
  {
    if j < |w.emitters| {
      assert PairStep(w, i, j, blasts) == w;
      QuietRowChangesNothing(w, i, j + 1, blasts);
    }
  }

  lemma {:induction false} QuietPassChangesNothing(w: World, i: nat, blasts: seq<ExplosionDraw>)
    requires i <= |w.emitters| && ValidBlasts(|w.emitters|, blasts) && Quiet(w.emitters)
    ensures CollisionPass(w, i, blasts) == w
    decreases |w.emitters| - i
  {
    if i < |w.emitters| {
      QuietRowChangesNothing(w, i, i + 1, blasts);
      QuietPassChangesNothing(w, i + 1, blasts);
    }
  }

  /** In a quiet world the loop creates no explosion and every emitter stays active. */
  lemma QuietLoop(cfg: Config, w: World, blasts: seq<ExplosionDraw>, sparks: seq<ParticleDraw>)
    requires ValidBlasts(|w.emitters|, blasts) && ValidSparks(|w.emitters|, sparks) && Quiet(w.emitters)
    ensures EmitterLoop(cfg, w, 0, blasts, sparks).explosions == w.explosions
    ensures forall k :: 0 <= k < |w.emitters| ==> !EmitterLoop(cfg, w, 0, blasts, sparks).emitters[k].exploded
  {
    InterleavedIsPhased(cfg, w, 0, blasts, sparks);
    QuietPassChangesNothing(w, 0, blasts);
    MotionPassAdvancesEach(cfg, w, 0, sparks);
  }

  /** The emitters after a tick are those of the settled world, pruned. */
  lemma TickEmitters(cfg: Config, w: World, d: TickDraws)
    requires ValidTickDraws(cfg, |w.emitters|, d)
    ensures Tick(cfg, w, d).emitters == Filter(EmitterLive, Settle(cfg, w, d).emitters)
  {
  }

  /** A tick without collisions creates no explosion, loses no emitter, and adds one
      exactly when the population is below the target. */
  lemma QuietTick(cfg: Config, w: World, d: TickDraws)
    requires ValidTickDraws(cfg, |w.emitters|, d) && Quiet(w.emitters)
    ensures |EmitterLoop(cfg, w, 0, d.blasts, d.sparks).explosions| == |w.explosions|
    ensures |Tick(cfg, w, d).emitters| == |w.emitters| + (if |w.emitters| < cfg.emitterCount then 1 else 0)
  {
    QuietLoop(cfg, w, d.blasts, d.sparks);
    var loop := EmitterLoop(cfg, w, 0, d.blasts, d.sparks).emitters;
    var grown := Settle(cfg, w, d).emitters;
    TickSpawnsAtMostOne(cfg, w, d);
    forall k | 0 <= k < |grown|
      ensures EmitterLive(grown[k])
    {
      if k < |w.emitters| {
        assert grown[k] == grown[..|w.emitters|][k] == loop[k];
      }
    }
    FilterAllKept(EmitterLive, grown);
    TickEmitters(cfg, w, d);
  }
}

=== FILE: trail.dfy ===
/** Trail particles: the short-lived dots an emitter leaves behind it
    (class `Particle` in js/main.js). */
module Trail {
  import opened Geometry
  import opened Colors
  import opened Seqs

  /** `lifeTime` counts down by one per update. It is drawn from a real range and
      is therefore in general not a whole number. */
  datatype Particle = Particle(
    position: Vec,
    velocity: Vec,
    acceleration: Vec,
    mass: PosReal,
    lifeTime: real,
    color: Color)

  /** The random values one particle construction consumes: a direction from
      p5.Vector.random2D, a speed from getRandomRange(1, 2) and a lifetime from
      getRandomRange(20, 35). */
  datatype ParticleDraw = ParticleDraw(heading: Vec, speed: real, lifeTime: real)

  predicate ValidParticleDraw(d: ParticleDraw) {
    IsUnit(d.heading) && 1.0 <= d.speed < 2.0 && 20.0 <= d.lifeTime < 35.0
  }

  /** `new Particle(x, y, mass, color)`: at rest in acceleration, moving at the drawn speed. */
  function NewParticle(x: real, y: real, mass: PosReal, color: Color, d: ParticleDraw): (p: Particle)
    requires ValidParticleDraw(d)
    ensures p.position == Vec(x, y) && p.mass == mass && p.color == color
    ensures p.acceleration == Zero
    ensures p.velocity == Scale(d.heading, d.speed)
    ensures SqNorm(p.velocity) == d.speed * d.speed
    ensures 1.0 <= SqNorm(p.velocity) < 4.0
    ensures p.lifeTime == d.lifeTime && !ParticleDead(p)
  {
    SqNormScale(d.heading, d.speed);
    assert d.speed * d.speed < 2.0 * d.speed;
    Particle(Vec(x, y), Scale(d.heading, d.speed), Zero, mass, d.lifeTime, color)
  }

  predicate ParticleDead(p: Particle) {
    p.lifeTime <= 0.0
  }

  /** One tick: velocity takes the acceleration, position takes the new velocity,
      acceleration is cleared and the lifetime drops by exactly one. */
  function UpdateParticle(p: Particle): (r: Particle)
    ensures r.velocity == Add(p.velocity, p.acceleration)
    ensures r.position == Add(p.position, r.velocity)
    ensures r.acceleration == Zero
    ensures r.lifeTime == p.lifeTime - 1.0 && r.lifeTime < p.lifeTime
    ensures r.mass == p.mass && r.color == p.color
  {
    var v := Add(p.velocity, p.acceleration);
    p.(position := Add(p.position, v), velocity := v, acceleration := Zero, lifeTime := p.lifeTime - 1.0)
  }

  /** Accumulates `force / mass`: mass times the change of acceleration is the force. */
  function ApplyForceToParticle(p: Particle, force: Vec): (r: Particle)
    ensures Scale(Sub(r.acceleration, p.acceleration), p.mass) == force
    ensures r == p.(acceleration := r.acceleration)
  {
    var r := p.(acceleration := Add(p.acceleration, Div(force, p.mass)));
    assert (force.x / p.mass) * p.mass == force.x;
    assert (force.y / p.mass) * p.mass == force.y;
    r
  }

  /** The drawing diameter, p5's `map(lifeTime, 0, 35, 1, 30)` (linear, unclamped). */
  function ParticleSize(p: Particle): (s: real)
    ensures p.lifeTime == 0.0 ==> s == 1.0
    ensures p.lifeTime == 35.0 ==> s == 30.0
    ensures 0.0 <= p.lifeTime <= 35.0 ==> 1.0 <= s <= 30.0
  {
    1.0 + (p.lifeTime - 0.0) * (30.0 - 1.0) / (35.0 - 0.0)
  }

  /** A younger particle (more lifetime left) is drawn strictly larger. */
  lemma ParticleSizeMonotone(p: Particle, q: Particle)
    requires p.lifeTime < q.lifeTime
    ensures ParticleSize(p) < ParticleSize(q)
  {
    assert (q.lifeTime - p.lifeTime) * 29.0 / 35.0 > 0.0;
  }

  /** The drawing size is linear in the lifetime: every update shrinks the dot by the
      same 29/35 (`ParticleSizeAfter` sums this over several updates). */
  lemma ParticleSizeShrinksPerUpdate(p: Particle)
    ensures ParticleSize(UpdateParticle(p)) == ParticleSize(p) - 29.0 / 35.0
  {
  }

  /** Updates every particle of a trail once, keeping the sequence shape. */
  function AgeTrail(ps: seq<Particle>): (r: seq<Particle>)
    ensures |r| == |ps|
    ensures forall k :: 0 <= k < |ps| ==> r[k] == UpdateParticle(ps[k])
  {
    seq(|ps|, k requires 0 <= k < |ps| => UpdateParticle(ps[k]))
  }

  predicate ParticleAlive(p: Particle) {
    !ParticleDead(p)
  }

  /** The trail part of an emitter update: every particle ages once and the dead ones
      are dropped, so no dead particle is left. */
  function UpdateTrail(ps: seq<Particle>): (r: seq<Particle>)
    ensures |r| <= |ps|
    ensures forall k :: 0 <= k < |r| ==> !ParticleDead(r[k])
  {
    Filter(ParticleAlive, AgeTrail(ps))
  }

  /** Exactly the particles that die in this update are dropped: every aged value
      keeps its multiplicity if alive and vanishes if dead. */
  lemma UpdateTrailExact(ps: seq<Particle>)
    ensures forall x :: multiset(UpdateTrail(ps))[x] == if ParticleDead(x) then 0 else multiset(AgeTrail(ps))[x]
  {
    FilterExact(ParticleAlive, AgeTrail(ps));
  }

  /** The survivors of a trail update keep their relative order. */
  lemma UpdateTrailKeepsOrder(ps: seq<Particle>)
    ensures IsSubseq(UpdateTrail(ps), AgeTrail(ps))
  {
    FilterKeepsOrder(ParticleAlive, AgeTrail(ps));
  }

  /** If every particle of a trail has at most `bound` of lifetime, every survivor of
      an update has at most `bound - 1`; with `bound <= 1` nothing survives. */
  lemma UpdateTrailLowersBound(ps: seq<Particle>, bound: real)
    requires forall k :: 0 <= k < |ps| ==> ps[k].lifeTime <= bound
    ensures forall k :: 0 <= k < |UpdateTrail(ps)| ==> UpdateTrail(ps)[k].lifeTime <= bound - 1.0
    ensures bound <= 1.0 ==> UpdateTrail(ps) == []
  {
    var r := UpdateTrail(ps);
    var aged := AgeTrail(ps);
    FilterMembers(ParticleAlive, aged);
    forall k | 0 <= k < |r|
      ensures r[k].lifeTime <= bound - 1.0
    {
      assert r[k] in aged;
    }
    if bound <= 1.0 {
      FilterNoneKept(ParticleAlive, aged);
    }
  }

  /** `n` consecutive updates. */
  function AgeParticle(p: Particle, n: nat): Particle
  {
    if n == 0 then p else UpdateParticle(AgeParticle(p, n - 1))
  }

  /** The countdown: after `n` updates exactly `n` has been taken off the lifetime,
      so the particle is dead after `n` updates iff `n` reaches its starting
      lifetime, and never earlier. */
  lemma {:induction false} ParticleDiesOnSchedule(p: Particle, n: nat)
    ensures AgeParticle(p, n).lifeTime == p.lifeTime - n as real
    ensures ParticleDead(AgeParticle(p, n)) <==> n as real >= p.lifeTime
  {
    if n > 0 {
      ParticleDiesOnSchedule(p, n - 1);
    }
  }

  /** After `n` updates the dot has shrunk by exactly n * 29/35. */
  lemma {:induction false} ParticleSizeAfter(p: Particle, n: nat)
    ensures ParticleSize(AgeParticle(p, n)) == ParticleSize(p) - n as real * 29.0 / 35.0
  {
    if n > 0 {
      ParticleSizeAfter(p, n - 1);
      ParticleSizeShrinksPerUpdate(AgeParticle(p, n - 1));
    }
  }
}
